=== FILE: README.md ===
# NormalMapOnline in Dafny

NormalMapOnline is a browser tool that derives PBR texture maps from one
uploaded photograph: height, normal, edge, ambient occlusion, metallic,
roughness and a packed ORM (occlusion, roughness, metallic) map. Each map is
drawn by a WebGL fragment program. An `ImageProcessor` uploads the inputs
as textures, binds the uniforms, draws into a framebuffer and reads the
pixels back. The application controller keeps the stored maps and the
per-map tuning values. It regenerates a map 50 ms after its last edit, and
it generates missing upstream maps before their dependents.

This project models that core as pure Dafny functions and proves what it
promises. There are six modules:

- `Base`: shared `Option`, `byte`, real `Min`/`Max`/`Abs`, and the tuning
  value type (`Value`, `Params`).
- `Kernels`: the fragment programs of `js/shaders.js`, one pixel at a time.
  A pixel's neighbourhood is a `Window`, and colours are real numbers.
  `sqrt`, `exp`, `cos` and `sin` are function parameters constrained by the
  properties the proofs need; the other GLSL built-ins are written out
  (`clamp`, `smoothstep`, `mix`, `dot`, `length`, `normalize`, `distance`).
- `Gpu`: the resource bookkeeping of `js/imageProcessor.js`:
  - the device's live textures, its one shared framebuffer and the draws
    issued;
  - how `render` assigns texture units to the uniforms it can locate;
  - how every `generate*` call merges options over defaults;
  - what each call leaves live when an input is `null` and it throws;
  - the byte layout of `readPixels`.
- `Timing`: `debounce` and `throttle` of `js/utils.js`, as state machines
  driven by an explicit clock.
- `Utils`: `resizeImage` (with exact fractions), the upload validators, and
  the HSL conversions of `js/utils.js`.
- `App`: the controller of `js/app.js`, in several parts:
  - the tuning table and its edit and reset operations;
  - the debounced regeneration;
  - `generateMap`, including its dependency resolution;
  - `generateAllMaps`, `clearAll` and the state changes of `handleFileSelect`.

  Every generator call is appended to a log. The log records the call's
  inputs, its tuning values and whether it produced an image. This lets the
  contracts say which maps a call read and which run a stored map came from.

### Behaviour of the code worth knowing

The model follows the code in each case below.

- **Height of flat mid-grey.** With the default settings, a flat mid-grey
  image gets height 0.2, not 0.5. The code computes `0.7 * luma`, stretches
  it around 0.5 with the default intensity 2.0 and clamps
  (`Kernels.HeightOfFlatMidGrey`).
- **Edge threshold.** The edge program declares `u_threshold` but never
  reads it. It always applies `smoothstep(0.3, 0.7, .)`
  (`Kernels.EdgeIgnoresThreshold`).
- **Loading a new source.** `handleFileSelect` replaces only the source and
  the diffuse map. Every other stored map is kept (`App.LoadSource`).
- **Depth of dependency generation.** A missing dependency is generated by
  a full `generateMap` call, which resolves that dependency's own
  dependencies in turn. So edge with neither height nor normal generates
  height, then normal, then edge (`App.EdgeGeneratesHeightThenNormal`).
- **Roughness input.** When no normal map exists, roughness reads the
  source image in its place (`App.RoughnessFallsBackToSource`).
- **No cascade after a tuning edit.** The debounced regeneration reruns
  `generateMap` for the edited type alone. That call changes only the type
  and its own dependencies, so a dependent keeps its older map
  (`App.GenerateMap`).
- **Texture clean-up on failure.** The `ImageProcessor` deletes its textures
  only after a successful read-back. A `null` input makes the call throw and
  leaves live every texture created up to and including it (`Gpu.Pass`,
  `Gpu.GenerateAoMap`).

## Model

| member | source | states |
|---|---|---|
| Kernels.Clamp01 | js/shaders.js:64 | The result is in [0, 1], and a value already in [0, 1] is returned unchanged. |
| Kernels.Smoothstep | js/shaders.js:170 | Smoothstep stays in [0, 1]. It is 0 at or below the lower edge and 1 at or above the upper edge. |
| Kernels.HeightPixel | js/shaders.js:38-66 | Every height pixel is an opaque grey in [0, 1]. |
| Kernels.HeightIgnoresBlurAndGain | js/shaders.js:22-66 | The four blur weights and `finalGain` do not affect the height pixel; only `intensity` does. |
| Kernels.HeightOfFlatImage | js/shaders.js:44-64 | On a flat image the neighbour-contrast term vanishes: height is `0.7 * luma`, stretched around 0.5 and clamped. |
| Kernels.HeightOfFlatMidGrey | js/shaders.js:44-64 | Flat mid-grey at the default intensity 2.0 gives height 0.2. |
| Kernels.EffectiveStep | js/shaders.js:93 | The sampling distance is never below one texel, and it is either one texel or the requested step. |
| Kernels.NormalPixel | js/shaders.js:84-129 | The encoded normal has every channel in [0, 1] and is opaque. |
| Kernels.NormalOfFlatHeight | js/shaders.js:96-129 | A flat height neighbourhood encodes the straight-up normal (0.5, 0.5, 1), whatever the strength, step or inversion flags. |
| Kernels.EdgePixel | js/shaders.js:144-172 | Every edge pixel is an opaque grey in [0, 1]. |
| Kernels.EdgeIgnoresThreshold | js/shaders.js:137-172 | The `threshold` uniform has no effect on the edge map. |
| Kernels.EdgeOfFlatNormals | js/shaders.js:149-172 | Where the normal map is constant there is no edge: the pixel is white. |
| Kernels.SamplesTaken | js/shaders.js:206-210 | The sampling loop runs exactly over the indices below the sample limit, and never beyond the 16-sample cap. |
| Kernels.AoPixel | js/shaders.js:197-223 | AO is defined exactly when `aoSamples` is non-zero, and is then an opaque grey in [0, 1]. |
| Kernels.AoSampleCount | js/shaders.js:206-210 | A whole number n of samples takes min(n, 16) height samples. |
| Kernels.AoReadsOnlyTakenSamples | js/shaders.js:209-221 | Height samples beyond the ones the loop takes do not affect AO. |
| Kernels.AoUnoccluded | js/shaders.js:214-221 | If no sample the loop takes lies above the centre height, the pixel is fully unoccluded (white). |
| Kernels.AoIgnoresNormal | js/shaders.js:201-221 | The normal map is sampled but has no effect on AO. |
| Kernels.MetallicPixel | js/shaders.js:237-248 | Metallic is defined exactly when `smoothness` is positive, and is then an opaque grey in [0, 1]. |
| Kernels.MetallicOfGrey | js/shaders.js:241-246 | A grey colour at or above `threshold + smoothness` is fully metallic; one at or below `threshold - smoothness` is not metallic. |
| Kernels.RoughnessPixel | js/shaders.js:264-295 | Every roughness pixel is an opaque grey in [0, 1]. |
| Kernels.RoughnessOfUniformWindows | js/shaders.js:264-293 | With no colour or normal variation, roughness is the base roughness clamped to [0, 1]. |
| Kernels.BlurWeights | js/shaders.js:317-321 | The blur uses nine taps, and every weight is positive. |
| Kernels.BlurWeightsNormalized | js/shaders.js:317-323 | The total weight is positive, and the weights divided by it sum to 1. |
| Kernels.BlurChannelOfConstant | js/shaders.js:317-323 | Blurring a constant channel returns that constant. |
| Kernels.BlurChannelBounded | js/shaders.js:317-323 | A blurred value lies between the smallest and largest tap. |
| Kernels.BlurOfConstant | js/shaders.js:310-323 | Blurring a constant colour returns that colour. |
| Kernels.CombineOrm | js/shaders.js:340-355 | Alpha is 1, and inputs whose red channels are in [0, 1] give an ORM pixel in [0, 1]. |
| Kernels.GaussianBlur | js/shaders.js:300-323 | A blur of taps all in [0, 1] is in [0, 1] in every channel. |
| Kernels.CombineOrmRoundTrip | js/shaders.js:349-354 | Unpacking an ORM pixel returns the red channels of the AO, roughness and metallic inputs; alpha is 1. |
| Kernels.CombineOrmReadsOnlyRed | js/shaders.js:349-354 | Only the red channel of each input reaches the ORM map. |
| Kernels.AdjustLevels | js/shaders.js:384-404 | The colour grade keeps alpha and leaves every RGB channel in [0, 1]. |
| Kernels.AdjustHue | js/shaders.js:378-382 | Rotating a grey colour gives a grey colour, and a zero rotation (cosine 1, sine 0) keeps the colour. |
| Kernels.AdjustLevelsNeutral | js/shaders.js:388-404 | Zero brightness and hue with unit contrast and saturation leave an in-range colour unchanged. |
| Gpu.CreateTexture | js/imageProcessor.js:119-136 | A new texture gets a fresh handle that was not live and becomes live. The call yields a handle exactly when there is an image. |
| Gpu.DeleteTexture | js/imageProcessor.js:243-244 | Deleting removes exactly that handle from the live set. |
| Gpu.SetRenderTarget | js/imageProcessor.js:139-158 | Targeting a texture leaves a framebuffer bound. At most one framebuffer is ever created, and later calls reuse it. |
| Gpu.CreateAll | js/imageProcessor.js:119-136 | Creating a list of textures makes a run of consecutive fresh handles live. It succeeds exactly when no image is missing. |
| Gpu.DeleteAll | js/imageProcessor.js:243-244 | Deleting a list removes exactly those handles. |
| Gpu.BindOne | js/imageProcessor.js:178-199 | A uniform is bound only if it is located and its value has a bindable shape. It is bound with the matching GL call, and a texture takes exactly one unit. |
| Gpu.UnitsConsecutive | js/imageProcessor.js:178-199 | Texture units are handed out 0, 1, 2, … in uniform order, with no gaps. |
| Gpu.Bind | js/imageProcessor.js:178-199 | No more bindings than uniforms. |
| Gpu.Locate | js/imageProcessor.js:179-181 | Each uniform keeps its key and value, in order, and is looked up in the program. |
| Gpu.BindSound | js/imageProcessor.js:178-199 | Every binding comes from a located uniform of that name and value. |
| Gpu.BindComplete | js/imageProcessor.js:178-199 | Every located uniform with a bindable value is bound. |
| Gpu.UnlocatedIgnored | js/imageProcessor.js:180-182 | Uniforms the program does not declare are skipped as if they were absent. |
| Gpu.Render | js/imageProcessor.js:161-204 | A draw adds one draw of the program with the located uniforms' bindings. It creates and deletes no texture. |
| Gpu.Merge | js/imageProcessor.js:251-260 | Options override defaults key by key; keys of either side are kept. |
| Gpu.MergeIdempotent | js/imageProcessor.js:251-260 | Merging the same options twice changes nothing, and merging no options yields the defaults. |
| Gpu.HeightFinalGainDefault | js/imageProcessor.js:251-260 | Height's `finalGain` defaults to 0 when the caller does not set it. |
| Gpu.NormalInvertFlags | js/imageProcessor.js:325-332 | The green channel is inverted exactly for the DirectX convention, and red never is. |
| Gpu.ReadPixels | js/imageProcessor.js:544-554 | The read-back holds width × height × 4 bytes, and byte ((y·w + x)·4 + c) is channel c of pixel (x, y). |
| Gpu.PixelLayout | js/imageProcessor.js:544-554 | Every (x, y, c) in range maps to an index inside the buffer and reads back that channel of that pixel. |
| Gpu.Pass | js/imageProcessor.js:211-247 | A pass succeeds exactly when every input is present. On success every texture it created is deleted and one draw is added. On a missing input it throws, and the textures it had created stay live. |
| Gpu.ProcessDiffuse | js/imageProcessor.js:211-247 | Succeeds exactly with a source image and then leaks no texture; without one the device is untouched. |
| Gpu.GenerateHeightMap | js/imageProcessor.js:250-293 | Succeeds exactly with a source image and then leaks no texture; the result has the source's size. |
| Gpu.ApplyGaussianBlur | js/imageProcessor.js:508-541 | The blur uses three textures and two draws of the blur program and deletes all three. The first draw gets direction [1, 0] and the second [0, 1]. |
| Gpu.GenerateNormalMap | js/imageProcessor.js:296-346 | Succeeds exactly with a height image. Its last draw is the normal program, with or without pre-blur, and no texture is left live. |
| Gpu.GenerateEdgeMap | js/imageProcessor.js:349-377 | Succeeds exactly with a normal image and then leaks no texture. |
| Gpu.GenerateAoMap | js/imageProcessor.js:380-413 | Succeeds exactly with both images. With a normal map but no height map it throws, leaving two textures live. |
| Gpu.GenerateMetallicMap | js/imageProcessor.js:416-443 | Succeeds exactly with a diffuse image and then leaks no texture. |
| Gpu.GenerateRoughnessMap | js/imageProcessor.js:446-477 | Succeeds exactly with both images and then leaks no texture. |
| Gpu.CombineOrmMap | js/imageProcessor.js:480-505 | Succeeds exactly with all three images and then leaks no texture. |
| Gpu.FramebufferCreatedOnce | js/imageProcessor.js:139-158 | A height or normal generation creates at most one framebuffer, and keeps the one already there. |
| Timing.Advance | js/utils.js:157-167 | The pending call fires exactly when its due time has come, with the arguments of the last call; the timer is then cleared. |
| Timing.Call | js/utils.js:157-167 | Each call cancels the pending timer and schedules the new arguments `wait` later. |
| Timing.Run | js/utils.js:157-167 | After a series of calls, the pending timer holds the last call's arguments, due `wait` after it. |
| Timing.Expected | js/utils.js:157-167 | The reference never fires more often than it is called, and the last call always fires, `wait` after it, with its arguments. |
| Timing.SettleMatchesExpected | js/utils.js:157-167 | Replaying calls through the debouncer fires exactly the calls not followed by another one within `wait`, each `wait` after it. |
| Timing.BurstRunsOnce | js/utils.js:157-167 | A burst of calls each within `wait` of the previous fires once, with the last arguments. |
| Timing.DebounceExample | js/utils.js:157-167 | Calls at 0, 10 and 20 ms with a 50 ms wait fire once, at 70 ms, with the third call's arguments. |
| Timing.ThrottledCall | js/utils.js:170-179 | A call runs exactly when the throttle is not blocked; it then blocks for `limit`. A dropped call changes nothing. |
| Timing.RunThrottle | js/utils.js:170-179 | Replaying calls gives one ran-or-dropped answer per call and keeps the limit. |
| Timing.ThrottleRunsOutsideWindow | js/utils.js:170-179 | For a non-decreasing series of calls, a call runs exactly when no earlier call ran or the last one that ran is at least `limit` earlier. |
| Timing.ThrottleExample | js/utils.js:170-179 | With a 50 ms limit, calls at 0, 10, 20 and 60 ms run, drop, drop and run. |
| Utils.Scale | js/utils.js:93-97 | The scale factor is at most 1 and fits each positive side within its bound. It is exactly 1 when the image already fits. |
| Utils.ResizeImage | js/utils.js:88-111 | The resized image is no larger than the original and no larger than the bounds, and an image that fits is unchanged. |
| Utils.ResizeIdempotent | js/utils.js:88-111 | Resizing a resized image changes nothing. |
| Utils.ResizeLongSideHitsBound | js/utils.js:93-100 | In exact arithmetic, when the width is the limiting side and too large, the result is exactly the bound wide. |
| Utils.ResizeExample | js/utils.js:88-111 | A 4000 × 3000 image capped at 2048 becomes 2048 × 1536. |
| Utils.ValidImageIsListedImage | js/utils.js:336-339 | Exactly the five listed MIME types are accepted. The match is exact and case-sensitive, so GIF, WebP and "image/PNG" are refused. |
| Utils.SizeLimitInclusive | js/utils.js:341-343 | The default limit is 50 MiB, and it is inclusive: 52428800 bytes pass and one more fails. |
| Utils.RgbToHsl | js/utils.js:263-286 | Saturation is 0 exactly for greys, and greys get hue 0. Saturation and lightness are in [0, 100] and hue in [0, 360). |
| Utils.HslToRgb | js/utils.js:289-317 | With zero saturation the three channels are equal, each the rounded lightness. |
| Utils.GreyRoundTrip | js/utils.js:263-317 | Every grey RGB colour survives a round trip through HSL. |
| Utils.GreyIgnoresHue | js/utils.js:289-317 | With zero saturation the hue does not matter. |
| App.ParseName | js/app.js:829-856 | Every map type's name selects that type in `generateMap`'s switch. |
| App.InitValid | js/app.js:123-195 | The constructed controller satisfies the store invariant, with no maps stored. |
| App.UpdateTuningParam | js/app.js:669-687 | An unknown map type changes nothing. Otherwise the one value is set and every other value is kept. Displacement and subdivision go to the renderer alone; any other edit schedules a regeneration of that type 50 ms later. |
| App.ResetTuningParams | js/app.js:615-639 | A known type's values return to their defaults and a regeneration is scheduled. Resetting height also resets the renderer's preview. |
| App.ResetAllTuningParams | js/app.js:641-660 | Every value returns to the constructor's table, and the renderer gets the default displacement and subdivision. Maps, source and timer are untouched. |
| App.ResetIdempotent | js/app.js:615-660 | Resetting twice is the same as resetting once. |
| App.Invoke | js/app.js:903-955 | A generator call reads the current tuning values of its type. It returns an image exactly when none of its inputs is `null` and the GPU succeeds. It stores nothing. |
| App.GenerateMap | js/app.js:818-900 | A successful run is stored under its type. A refused or failed one leaves that type's map as it was. Without a source, only normal, AO and edge are tried. Only the type and its dependencies change. With a source, succeeding runs (and the three ORM inputs for combined), generation always stores. A stored height map re-sends the height displacement to the renderer; nothing else reaches the renderer. |
| App.Store | js/app.js:859-869 | The result is stored exactly when the generator returned an image; otherwise the previous map stays. Storing a height image sets the renderer's displacement to the height tuning's value. |
| App.Produce | js/app.js:829-854 | Dispatches on the type. An image is returned exactly when the last call was a successful run of that type. Only the type's dependencies change, and the renderer changes only when height is among them. |
| App.Ensure | js/app.js:911-947 | A present map, or no need, generates nothing. Otherwise, with a source and succeeding runs, the map is generated. |
| App.ProduceNormal | js/app.js:911-920 | Normal generates height first when it is missing and there is a source, then reads the stored height. With a source it succeeds. |
| App.ProduceRoughness | js/app.js:926-931 | Roughness reads the source and the stored normal map, or the source twice when there is still no normal map. |
| App.ProduceAo | js/app.js:933-940 | AO generates a missing height, then a missing normal, then reads both. With a source it succeeds. |
| App.ProduceEdge | js/app.js:942-947 | Edge generates a missing normal map first. With a source it succeeds. |
| App.ProduceCombined | js/app.js:949-955 | Combined is refused, with no call, unless AO, roughness and metallic are all stored; with all three it succeeds. |
| App.GenerateByName | js/app.js:818-858 | An unknown map name changes nothing. Any generation only adds to the log and keeps every stored map's slot. |
| App.Tick | js/app.js:190-192 | Before the timer is due nothing happens. When it is due, the pending map type is regenerated once and the timer is cleared; the renderer at most receives the height displacement. |
| App.GenerateEach | js/app.js:963-966 | Generating a list of types keeps the store invariant and never removes a map. |
| App.GenerateAllMaps | js/app.js:957-969 | Without a source nothing happens. Otherwise each type is generated in turn and no map is removed. |
| App.GenerateAllStoresEvery | js/app.js:957-969 | With a source and succeeding runs, generating every type stores all seven maps, and the ORM map is the last run. |
| App.ClearAll | js/app.js:801-816 | Every stored map is dropped. The renderer's displacement returns to 0 and its subdivision stays. The source, tuning values and timer are kept. |
| App.LoadSource | js/app.js:689-754 | A missing, mistyped or oversized file changes nothing. A valid file resets every tuning value and resets the renderer's preview to its defaults. Once decoded, it becomes the source and the diffuse map, and the other maps are kept. |
| App.NormalWithoutHeightOrSource | js/app.js:911-918 | Without a source or a height map, normal returns `null` and nothing changes. |
| App.NormalGeneratesHeightFirst | js/app.js:911-916 | With a source and no height map, the first call made is the height generator. |
| App.NormalReadsStoredHeight | js/app.js:911-920 | With a stored height map, normal makes one call, which reads that height map. |
| App.EdgeGeneratesNormalFirst | js/app.js:942-947 | With height stored but not normal, edge first runs normal, then edge. |
| App.NormalGeneratesHeightThenNormal | js/app.js:911-920 | With a source, no height map and succeeding runs, normal makes exactly two calls: height, then normal. |
| App.EdgeGeneratesHeightThenNormal | js/app.js:942-947 | With a source, neither height nor normal and succeeding runs, edge runs height, then normal, then edge. |
| App.HeightResendsDisplacement | js/app.js:864-869 | With a renderer, a source and succeeding runs, generating height sets the renderer's displacement to the height tuning's value and keeps its subdivision. |
| App.AoGeneratesHeightThenNormal | js/app.js:933-940 | With neither height nor normal, AO runs height, then normal, then AO. |
| App.RoughnessFallsBackToSource | js/app.js:926-931 | With a source, roughness always runs last. It reads the normal map when one exists, and the source in its place otherwise. |
| App.StoredWithCurrentTuning | js/app.js:903-955 | A map stored by `generateMap` was produced with the tuning values current when it was asked for. |
| App.CombinedNeedsAllThree | js/app.js:949-955 | If any of AO, roughness or metallic is missing, combined changes nothing. |
| App.StoresAndKeeps | js/app.js:859-861 | With a source and succeeding runs, generating a type stores it and keeps every map already stored. |
| App.EditsCoalesce | js/app.js:190-192 | Two edits 30 ms apart give one regeneration, 50 ms after the second, for the second edit's type. |

## Left out

- The DOM, the 3D preview (`renderer3d`), toasts, loading overlays, downloads, ZIP export, translations and performance timing are user-interface code. The renderer is reduced to the two preview values it receives.
- Shader compilation and program linking (`createProgram`, `createShader`, `initShaders`), `setupGeometry`, `toCanvas` and `dispose` are GPU plumbing with nothing to state beyond "it runs". A program is a name, and whether a uniform is located is the parameter `located`.
- Pixel values on the GPU are real numbers, not 8-bit textures or floats. Texture filtering and clamping at the image border are not modelled. Each kernel is modelled on one pixel's window of samples.
- `sqrt`, `exp`, `cos` and `sin` are parameters with the properties the proofs use (a square root squares back, the exponential is positive). The kernel models are exact for any such functions.
- Whether a generator's GPU work succeeds (e.g. a lost context) is the oracle `ok`. A `null` input is modelled exactly: it makes the `ImageProcessor` call throw.
- The AO program's sample angles use `cos` and `sin` only to choose where to sample. The sampled heights are an input sequence, so positions are not modelled.
- `async`/`await`: every awaited generation is modelled as running to completion before the next statement. The 100 ms `setTimeout` before `generateAllMaps` on load is not modelled; `GenerateAllMaps` is a separate call.
- `handleFileSelect`: image decoding is the parameter `decoded`. The resize it applies is `Utils.ResizeImage`, and sizes are not tracked in the store.
- Text-valued tuning values (the normal map's `type`) are never bound as uniforms; only numbers, number arrays and textures are.
- Kernels.MetallicPixel: returns `None` when `smoothness <= 0`, where GLSL leaves `smoothstep` undefined.
- Kernels.AoPixel: returns `None` when `aoSamples` is 0, where the program divides by zero.
- Kernels.Smoothstep: requires the lower edge below the upper one, because GLSL leaves the other case undefined.
- Utils.RgbToHsl: requires each channel in 0..255. This is the domain the function is written for, and it is what makes the hue and saturation ranges hold.
- Utils.HslToRgb: only the grey case is stated. The chromatic round trip through floating-point `Math.round` is not proved.
- Utils.ResizeImage: computes with exact fractions where the source uses floating-point division. It requires positive bounds; the application always passes 2048.
- Utils.ResizeLongSideHitsBound: the exact bound holds only in exact arithmetic. The source floors a floating-point product, which can give the bound minus one; for example, width 3136 at bound 2048 gives 2047.
- Gpu.Pass: texture balance is stated for the success path only, because the source does not release textures when it throws.
- App.GenerateAllMaps: the property that every map is stored is stated about the loop it runs, in `App.GenerateAllStoresEvery`.
- Renderer materials: `setMaterial` and the map slots `resetMaterial` clears are not modelled. Of the renderer, only the displacement and subdivision values are tracked.
- `clearSource`, `downloadAllMaps`, the tuning pop-up and the map-editing modal are user-interface flows over the operations above.

=== FILE: app.dfy ===
/**
 * The `NormalMapApp` controller without its DOM: per-type tuning values, the
 * routing of an edit to the 3D preview or to a debounced regeneration, and
 * the store of generated maps with its dependency resolution.  Map contents
 * are abstract: a stored map records which generator run produced it.  Each
 * generator run may fail; `ok(kind, run)` says whether run number `run` of
 * generator `kind` returns an image when all its inputs exist.
 */
module App {
  import opened Base
  import opened Timing
  import Utils

  datatype MapType = Diffuse | Height | Normal | Metallic | Roughness | Ao | Edge | Combined

  /** The key a map type has in `maps`, `tuningParams` and the UI. */
  function Name(t: MapType): string {
    match t
    case Diffuse => "diffuse"
    case Height => "height"
    case Normal => "normal"
    case Metallic => "metallic"
    case Roughness => "roughness"
    case Ao => "ao"
    case Edge => "edge"
    case Combined => "combined"
  }

  /** The `switch (mapType)` of `generateMap`; any other string is `None`. */
  function Parse(s: string): (t: Option<MapType>)
    ensures t.Some? ==> Name(t.value) == s
  {
    if s == "diffuse" then Some(Diffuse)
    else if s == "height" then Some(Height)
    else if s == "normal" then Some(Normal)
    else if s == "metallic" then Some(Metallic)
    else if s == "roughness" then Some(Roughness)
    else if s == "ao" then Some(Ao)
    else if s == "edge" then Some(Edge)
    else if s == "combined" then Some(Combined)
    else None
  }

  lemma ParseName(t: MapType)
    ensures Parse(Name(t)) == Some(t)
  {
    assert "diffuse"[0] == 'd' && "height"[0] == 'h' && "normal"[0] == 'n' && "metallic"[0] == 'm';
    assert "roughness"[0] == 'r' && "ao"[0] == 'a' && "edge"[0] == 'e' && "combined"[0] == 'c';
  }

  // ---------------------------------------------------------------------
  // tuning values
  // ---------------------------------------------------------------------

  /** `tuningParams` as the constructor sets it. */
  const InitialTuning: map<string, Params> := map[
    "diffuse" := map["brightness" := Num(0.0), "contrast" := Num(1.0), "saturation" := Num(1.0), "hue" := Num(0.0)],
    "height" := map["intensity" := Num(2.0), "blur0Weight" := Num(0.15), "blur1Weight" := Num(0.19),
                    "blur2Weight" := Num(0.24), "blur3Weight" := Num(0.42),
                    "displacementScale" := Num(0.0), "subdivision" := Num(128.0)],
    "normal" := map["strength" := Num(2.0), "levelBlur" := Num(0.0), "step" := Num(1.0), "type" := Text("opengl")],
    "metallic" := map["threshold" := Num(0.5), "smoothness" := Num(0.1)],
    "roughness" := map["baseRoughness" := Num(0.3), "normalInfluence" := Num(0.5)],
    "ao" := map["aoStrength" := Num(1.0), "aoSpread" := Num(3.0), "aoSamples" := Num(16.0)],
    "edge" := map["edgeStrength" := Num(2.0), "threshold" := Num(0.1)]]

  /** The `defaultValues` table that `resetTuningParams` and `resetAllTuningParams` each spell out. */
  const DefaultTuning: map<string, Params> := map[
    "diffuse" := map["brightness" := Num(0.0), "contrast" := Num(1.0), "saturation" := Num(1.0), "hue" := Num(0.0)],
    "height" := map["intensity" := Num(2.0), "blur0Weight" := Num(0.15), "blur1Weight" := Num(0.19),
                    "blur2Weight" := Num(0.24), "blur3Weight" := Num(0.42),
                    "displacementScale" := Num(0.0), "subdivision" := Num(128.0)],
    "normal" := map["strength" := Num(2.0), "levelBlur" := Num(0.0), "step" := Num(1.0), "type" := Text("opengl")],
    "metallic" := map["threshold" := Num(0.5), "smoothness" := Num(0.1)],
    "roughness" := map["baseRoughness" := Num(0.3), "normalInfluence" := Num(0.5)],
    "ao" := map["aoStrength" := Num(1.0), "aoSpread" := Num(3.0), "aoSamples" := Num(16.0)],
    "edge" := map["edgeStrength" := Num(2.0), "threshold" := Num(0.1)]]

  /**
   * The two preview-only values last sent to the 3D renderer
   * (`setDisplacementScale`, `setSubdivision`), as sent, not the renderer's own state.
   */
  datatype Preview = Preview(displacementScale: Value, subdivision: Value)

  const DefaultPreview: Preview :=
    Preview(DefaultTuning["height"]["displacementScale"], DefaultTuning["height"]["subdivision"])

  /** `debouncedGenerate` waits this long (ms). */
  const RegenWait: nat := 50

  // ---------------------------------------------------------------------
  // application state
  // ---------------------------------------------------------------------

  /** A stored map: the output of generator run `run`, or the uploaded image itself. */
  datatype MapImage = Generated(run: nat) | SourceCopy

  /** An argument of a generator call. */
  datatype Input = FromSource | FromMap(kind: MapType, image: MapImage) | Absent

  /** One generator call: what it read, with which tuning values, and whether it returned an image. */
  datatype Invocation = Invocation(kind: MapType, inputs: seq<Input>, params: Params, produced: bool)

  datatype App = App(
    hasSource: bool,
    renderer: Option<Preview>,
    tuning: map<string, Params>,
    maps: map<MapType, MapImage>,
    regen: Debouncer<string>,
    log: seq<Invocation>)

  function Init(renderer: Option<Preview>): App {
    App(false, renderer, InitialTuning, map[], NewDebouncer(RegenWait), [])
  }

  /** Stored `image` for `u` is what a successful run of `u`'s generator returned, or the upload for diffuse. */
  predicate ImageValid(log: seq<Invocation>, u: MapType, image: MapImage) {
    match image
    case Generated(k) => k < |log| && log[k].kind == u && log[k].produced
    case SourceCopy => u == Diffuse
  }

  /** A call made as run `k` read only maps produced by earlier runs. */
  predicate InputsEarlier(inputs: seq<Input>, k: nat) {
    forall i :: 0 <= i < |inputs| && inputs[i].FromMap? && inputs[i].image.Generated? ==> inputs[i].image.run < k
  }

  /** The height tuning holds the displacement a stored height map re-sends to the renderer. */
  predicate HasDisplacement(tuning: map<string, Params>) {
    "height" in tuning && "displacementScale" in tuning["height"]
  }

  /**
   * The renderer after `generateMap('height')` stores an image: the height
   * tuning's `displacementScale` is sent to it again.  (`Valid` keeps that
   * value present, so the fallback never applies to a valid state.)
   */
  function ShowHeight(a: App): Option<Preview> {
    if a.renderer.Some? && HasDisplacement(a.tuning)
    then Some(a.renderer.value.(displacementScale := a.tuning["height"]["displacementScale"]))
    else a.renderer
  }

  /**
   * The invariant of the controller's state: the regeneration timer waits
   * 50 ms, the height tuning has a displacement, every stored map is the product of a successful run of its own
   * type (or the upload, for diffuse), and every run read only maps produced
   * before it.
   */
  predicate Valid(a: App) {
    && a.regen.wait == RegenWait
    && HasDisplacement(a.tuning)
    && (forall u :: u in a.maps ==> ImageValid(a.log, u, a.maps[u]))
    && (forall k :: 0 <= k < |a.log| ==> InputsEarlier(a.log[k].inputs, k))
  }

  lemma InitValid(renderer: Option<Preview>)
    ensures Valid(Init(renderer)) && Init(renderer).maps == map[]
  {
  }

  /**
   * `r` is `a` after generator work: more log, more or newer maps, the
   * renderer at most shown the height displacement, nothing else touched.
   */
  predicate Extends(a: App, r: App) {
    && a.log <= r.log
    && r.hasSource == a.hasSource && r.tuning == a.tuning && r.regen == a.regen
    && (r.renderer == a.renderer || r.renderer == ShowHeight(a))
    && (forall u :: u in a.maps ==> u in r.maps)
  }

  /** Map `u` is stored in `r` exactly as in `a`. */
  predicate Unchanged(a: App, r: App, u: MapType) {
    (u in r.maps <==> u in a.maps) && (u in a.maps ==> r.maps[u] == a.maps[u])
  }

  /** The last generator run between `a` and `r` was a successful run of `t`'s generator. */
  predicate LastProduced(a: App, r: App, t: MapType) {
    |r.log| > |a.log| && r.log[|r.log| - 1].kind == t && r.log[|r.log| - 1].produced
  }

  // ---------------------------------------------------------------------
  // tuning operations
  // ---------------------------------------------------------------------

  /** The two height settings that go to the renderer instead of regenerating, when there is a renderer. */
  predicate PreviewOnly(a: App, mapType: string, param: string) {
    mapType == "height" && (param == "displacementScale" || param == "subdivision") && a.renderer.Some?
  }

  /**
   * `updateTuningParam`: an unknown type changes nothing; otherwise the one
   * value is set, and the edit either goes straight to the renderer or
   * (re)starts the shared regeneration timer for this type.
   */
  function UpdateTuningParam(a: App, mapType: string, param: string, value: Value, now: int): (r: App)
    ensures mapType !in a.tuning ==> r == a
    ensures mapType in a.tuning ==>
              && r.tuning.Keys == a.tuning.Keys
              && r.tuning[mapType].Keys == a.tuning[mapType].Keys + {param}
              && r.tuning[mapType][param] == value
              && (forall q :: q in a.tuning[mapType] && q != param ==> r.tuning[mapType][q] == a.tuning[mapType][q])
              && (forall k :: k in a.tuning && k != mapType ==> r.tuning[k] == a.tuning[k])
    ensures r.maps == a.maps && r.log == a.log && r.hasSource == a.hasSource
    ensures mapType in a.tuning && PreviewOnly(a, mapType, param) ==>
              && r.regen == a.regen
              && r.renderer.Some?
              && (if param == "displacementScale"
                  then r.renderer.value == a.renderer.value.(displacementScale := value)
                  else r.renderer.value == a.renderer.value.(subdivision := value))
    ensures mapType in a.tuning && !PreviewOnly(a, mapType, param) ==>
              r.renderer == a.renderer && r.regen.pending == Some(Timer(now + a.regen.wait, mapType))
    ensures Valid(a) ==> Valid(r)
  {
    if mapType !in a.tuning then a
    else
      var a1 := a.(tuning := a.tuning[mapType := a.tuning[mapType][param := value]]);
      if PreviewOnly(a, mapType, param) then
        var p := a.renderer.value;
        a1.(renderer := Some(if param == "displacementScale" then p.(displacementScale := value) else p.(subdivision := value)))
      else
        a1.(regen := Call(a.regen, now, mapType))
  }

  /**
   * `resetTuningParams`: a known type gets a fresh copy of its defaults
   * (height also resets the renderer) and its regeneration is scheduled.
   */
  function ResetTuningParams(a: App, mapType: string, now: int): (r: App)
    ensures mapType !in DefaultTuning ==> r == a
    ensures mapType in DefaultTuning ==>
              && r.tuning == a.tuning[mapType := DefaultTuning[mapType]]
              && r.regen.pending == Some(Timer(now + a.regen.wait, mapType))
              && r.renderer == (if mapType == "height" && a.renderer.Some? then Some(DefaultPreview) else a.renderer)
    ensures r.maps == a.maps && r.log == a.log && r.hasSource == a.hasSource
    ensures Valid(a) ==> Valid(r)
  {
    if mapType !in DefaultTuning then a
    else
      var a1 := a.(tuning := a.tuning[mapType := DefaultTuning[mapType]]);
      var a2 := if mapType == "height" && a.renderer.Some? then a1.(renderer := Some(DefaultPreview)) else a1;
      a2.(regen := Call(a.regen, now, mapType))
  }

  /**
   * `resetAllTuningParams`: every type back to the constructor's values, the
   * renderer's preview settings too, and nothing scheduled.
   */
  function ResetAllTuningParams(a: App): (r: App)
    ensures r.tuning == InitialTuning
    ensures r.regen == a.regen && r.maps == a.maps && r.log == a.log && r.hasSource == a.hasSource
    ensures r.renderer.Some? <==> a.renderer.Some?
    ensures r.renderer.Some? ==> r.renderer.value == Preview(InitialTuning["height"]["displacementScale"],
                                                             InitialTuning["height"]["subdivision"])
    ensures Valid(a) ==> Valid(r)
  {
    a.(tuning := DefaultTuning, renderer := if a.renderer.Some? then Some(DefaultPreview) else None)
  }

  /** Resetting one type twice is resetting it once, and resetting everything twice is resetting it once. */
  lemma ResetIdempotent(a: App, mapType: string, now: int)
    requires mapType in DefaultTuning
    ensures ResetTuningParams(ResetTuningParams(a, mapType, now), mapType, now) == ResetTuningParams(a, mapType, now)
    ensures ResetAllTuningParams(ResetAllTuningParams(a)) == ResetAllTuningParams(a)
  {
  }

  // ---------------------------------------------------------------------
  // the map store
  // ---------------------------------------------------------------------

  /** What a generator call returns to `generateMap`. */
  datatype Result = Produced(image: MapImage) | NullResult | Threw

  function SourceInput(a: App): Input {
    if a.hasSource then FromSource else Absent
  }

  function MapInput(a: App, u: MapType): Input {
    if u in a.maps then FromMap(u, a.maps[u]) else Absent
  }

  /** The tuning values a generator is called with (`combined` has none). */
  function ParamsFor(a: App, t: MapType): Params {
    if Name(t) in a.tuning then a.tuning[Name(t)] else map[]
  }

  predicate NoneAbsent(inputs: seq<Input>) {
    forall i :: 0 <= i < |inputs| ==> !inputs[i].Absent?
  }

  /** Every map argument is the map currently stored under its type. */
  predicate Current(a: App, inputs: seq<Input>) {
    forall i :: 0 <= i < |inputs| && inputs[i].FromMap? ==>
      inputs[i].kind in a.maps && a.maps[inputs[i].kind] == inputs[i].image
  }

  /**
   * One call into `ImageProcessor`: a `null` argument makes it throw (see the
   * `Gpu` module); otherwise run `|a.log|` succeeds or throws as `ok` says.
   */
  function Invoke(a: App, kind: MapType, inputs: seq<Input>, ok: (MapType, nat) -> bool): (r: (App, Result))
    requires Valid(a) && Current(a, inputs)
    ensures Valid(r.0) && Extends(a, r.0) && r.0.maps == a.maps
    ensures |r.0.log| == |a.log| + 1 && r.0.log[|a.log|].kind == kind && r.0.log[|a.log|].inputs == inputs
    ensures r.0.log[|a.log|].params == ParamsFor(a, kind)
    ensures r.0.log[|a.log|].produced <==> NoneAbsent(inputs) && ok(kind, |a.log|)
    ensures r.1.Produced? <==> r.0.log[|a.log|].produced
    ensures r.1.Produced? ==> r.1.image == Generated(|a.log|)
    ensures !r.1.NullResult?
  {
    var run := |a.log|;
    var produced := NoneAbsent(inputs) && ok(kind, run);
    var a1 := a.(log := a.log + [Invocation(kind, inputs, ParamsFor(a, kind), produced)]);
    assert forall k :: 0 <= k < run ==> a1.log[k] == a.log[k];
    (a1, if produced then Produced(Generated(run)) else Threw)
  }

  /**
   * Everything `t`'s generator needs can be had: a source image, and for
   * `combined` its three stored maps, which are never generated on its behalf.
   */
  predicate Ready(a: App, t: MapType) {
    a.hasSource && (t == Combined ==> Ao in a.maps && Roughness in a.maps && Metallic in a.maps)
  }

  /** Every generator run succeeds whenever its inputs exist. */
  ghost predicate AllSucceed(ok: (MapType, nat) -> bool) {
    forall t, n :: ok(t, n)
  }

  /** How deep a type's dependency chain is; generation recurses only downwards. */
  function Rank(t: MapType): nat {
    match t
    case Normal => 1
    case Roughness | Ao | Edge => 2
    case _ => 0
  }

  /** The maps generating `t` may also (re)generate. */
  function Deps(t: MapType): set<MapType> {
    match t
    case Normal => {Height}
    case Roughness | Ao | Edge => {Height, Normal}
    case _ => {}
  }

  /** The types `generateMap` serves without a source image. */
  predicate WorksWithoutSource(t: MapType) {
    t == Normal || t == Ao || t == Edge
  }

  /** `r` extends `a` and leaves every map outside `changed` alone. */
  predicate Step(a: App, r: App, changed: set<MapType>) {
    && Extends(a, r)
    && (forall u :: u !in changed ==> Unchanged(a, r, u))
    && (Height !in changed ==> r.renderer == a.renderer)
  }

  lemma StepTrans(a: App, b: App, c: App, s1: set<MapType>, s2: set<MapType>)
    requires Step(a, b, s1) && Step(b, c, s2)
    ensures Step(a, c, s1 + s2)
  {
    assert a.log <= c.log by {
      assert c.log[..|b.log|] == b.log;
      assert b.log[..|a.log|] == a.log;
      assert c.log[..|a.log|] == c.log[..|b.log|][..|a.log|];
    }
  }

  /**
   * `generateMap(mapType)`: refuse without a source unless the type is
   * normal, ao or edge; otherwise run the type's `generate*Map` and store the
   * result only when it is an image.
   */
  function GenerateMap(a: App, t: MapType, ok: (MapType, nat) -> bool): (r: App)
    requires Valid(a)
    ensures Valid(r) && Step(a, r, Deps(t) + {t})
    ensures LastProduced(a, r, t) ==> t in r.maps && r.maps[t] == Generated(|r.log| - 1)
    ensures !LastProduced(a, r, t) ==> Unchanged(a, r, t)
    ensures !a.hasSource && !WorksWithoutSource(t) ==> r == a
    ensures Ready(a, t) && AllSucceed(ok) ==> LastProduced(a, r, t)
    ensures t == Height ==> r.renderer == (if LastProduced(a, r, t) then ShowHeight(a) else a.renderer)
    decreases Rank(t), 3
  {
    if !a.hasSource && !WorksWithoutSource(t) then a
    else
      var (a1, res) := Produce(a, t, ok);
      Store(a, a1, t, res)
  }

  /**
   * The `if (result)` of `generateMap`: only an image is stored, and a stored
   * height map re-sends the height displacement to the renderer.
   */
  function Store(a: App, a1: App, t: MapType, res: Result): (r: App)
    requires Valid(a1) && Step(a, a1, Deps(t))
    requires res.Produced? <==> LastProduced(a, a1, t)
    requires res.Produced? ==> res.image == Generated(|a1.log| - 1)
    ensures Valid(r) && Step(a, r, Deps(t) + {t}) && r.log == a1.log
    ensures LastProduced(a, r, t) <==> res.Produced?
    ensures LastProduced(a, r, t) ==> t in r.maps && r.maps[t] == Generated(|r.log| - 1)
    ensures !LastProduced(a, r, t) ==> Unchanged(a, r, t)
    ensures r.renderer == (if t == Height && res.Produced? then ShowHeight(a) else a1.renderer)
  {
    if res.Produced? then
      a1.(maps := a1.maps[t := res.image], renderer := if t == Height then ShowHeight(a1) else a1.renderer)
    else a1
  }

  /** The `generate*Map` methods of the controller, with their dependency resolution. */
  function Produce(a: App, t: MapType, ok: (MapType, nat) -> bool): (r: (App, Result))
    requires Valid(a)
    ensures Valid(r.0) && Step(a, r.0, Deps(t))
    ensures r.1.Produced? <==> LastProduced(a, r.0, t)
    ensures r.1.Produced? ==> r.1.image == Generated(|r.0.log| - 1)
    ensures Ready(a, t) && AllSucceed(ok) ==> r.1.Produced?
    decreases Rank(t), 2
  {
    match t
    case Diffuse => Invoke(a, Diffuse, [SourceInput(a)], ok)
    case Height => Invoke(a, Height, [SourceInput(a)], ok)
    case Metallic => Invoke(a, Metallic, [SourceInput(a)], ok)
    case Normal => ProduceNormal(a, ok)
    case Roughness => ProduceRoughness(a, ok)
    case Ao => ProduceAo(a, ok)
    case Edge => ProduceEdge(a, ok)
    case Combined => ProduceCombined(a, ok)
  }

  /**
   * `if (!this.maps[u]) await this.generateMap(u)`, guarded by `when`: a
   * present dependency is left as it is.
   */
  function Ensure(a: App, u: MapType, when: bool, ok: (MapType, nat) -> bool): (r: App)
    requires Valid(a)
    ensures Valid(r) && Step(a, r, Deps(u) + {u})
    ensures u in a.maps || !when ==> r == a
    ensures when && a.hasSource && u != Combined && AllSucceed(ok) ==> u in r.maps
    decreases Rank(u), 4
  {
    if u !in a.maps && when then GenerateMap(a, u, ok) else a
  }

  /**
   * The generator call that ends a `generate*Map`, made once its
   * dependencies took the state from `a` to `a1`.
   */
  function CallAfter(a: App, a1: App, changed: set<MapType>, kind: MapType, inputs: seq<Input>,
                     ok: (MapType, nat) -> bool): (r: (App, Result))
    requires Valid(a1) && Step(a, a1, changed) && Current(a1, inputs)
    ensures Valid(r.0) && Step(a, r.0, changed)
    ensures r.1.Produced? <==> LastProduced(a, r.0, kind)
    ensures r.1.Produced? ==> r.1.image == Generated(|r.0.log| - 1) && r.0.log[|r.0.log| - 1].params == ParamsFor(a, kind)
    ensures NoneAbsent(inputs) && AllSucceed(ok) ==> r.1.Produced?
    ensures |r.0.log| == |a1.log| + 1 && r.0.log[|a1.log|].kind == kind && r.0.log[|a1.log|].inputs == inputs
    ensures r.0.maps == a1.maps
  {
    var (a2, res) := Invoke(a1, kind, inputs, ok);
    StepTrans(a, a1, a2, changed, {});
    (a2, res)
  }

  /** `generateNormalMap`: height first when it is missing and there is a source; no height, no call. */
  function ProduceNormal(a: App, ok: (MapType, nat) -> bool): (r: (App, Result))
    requires Valid(a)
    ensures Valid(r.0) && Step(a, r.0, Deps(Normal))
    ensures r.1.Produced? <==> LastProduced(a, r.0, Normal)
    ensures r.1.Produced? ==> r.1.image == Generated(|r.0.log| - 1)
    ensures Ready(a, Normal) && AllSucceed(ok) ==> r.1.Produced?
    decreases Rank(Normal), 1
  {
    var a1 := Ensure(a, Height, a.hasSource, ok);
    if Height !in a1.maps then (a1, NullResult)
    else CallAfter(a, a1, Deps(Normal), Normal, [MapInput(a1, Height)], ok)
  }

  /** `generateRoughnessMap`: normal first when missing and there is a source; the source stands in for a missing normal. */
  function ProduceRoughness(a: App, ok: (MapType, nat) -> bool): (r: (App, Result))
    requires Valid(a)
    ensures Valid(r.0) && Step(a, r.0, Deps(Roughness))
    ensures r.1.Produced? <==> LastProduced(a, r.0, Roughness)
    ensures r.1.Produced? ==> r.1.image == Generated(|r.0.log| - 1)
    ensures Ready(a, Roughness) && AllSucceed(ok) ==> r.1.Produced?
    ensures |r.0.log| > |a.log| && r.0.log[|r.0.log| - 1].kind == Roughness
    ensures a.hasSource && Normal !in r.0.maps ==> r.0.log[|r.0.log| - 1].inputs == [FromSource, FromSource]
    ensures a.hasSource && Normal in r.0.maps ==> r.0.log[|r.0.log| - 1].inputs == [FromSource, FromMap(Normal, r.0.maps[Normal])]
    decreases Rank(Roughness), 1
  {
    var a1 := Ensure(a, Normal, a.hasSource, ok);
    assert Deps(Normal) + {Normal} == {Height, Normal};
    CallAfter(a, a1, Deps(Roughness), Roughness,
              [SourceInput(a1), if Normal in a1.maps then MapInput(a1, Normal) else SourceInput(a1)], ok)
  }

  /** The two `if (!this.maps[..])` steps of `generateAOMap`: height, then normal, each only when missing. */
  function EnsureHeightThenNormal(a: App, ok: (MapType, nat) -> bool): (r: App)
    requires Valid(a)
    ensures Valid(r) && Step(a, r, {Height, Normal})
    ensures a.hasSource && AllSucceed(ok) ==> Height in r.maps && Normal in r.maps
    ensures Height in a.maps ==> r == Ensure(a, Normal, true, ok)
    decreases Rank(Ao), 0
  {
    var a1 := Ensure(a, Height, true, ok);
    var a2 := Ensure(a1, Normal, true, ok);
    assert Deps(Height) + {Height} == {Height};
    assert Deps(Normal) + {Normal} == {Height, Normal};
    StepTrans(a, a1, a2, {Height}, {Height, Normal});
    a2
  }

  /** `generateAOMap`: height, then normal, each only when missing. */
  function ProduceAo(a: App, ok: (MapType, nat) -> bool): (r: (App, Result))
    requires Valid(a)
    ensures Valid(r.0) && Step(a, r.0, Deps(Ao))
    ensures r.1.Produced? <==> LastProduced(a, r.0, Ao)
    ensures r.1.Produced? ==> r.1.image == Generated(|r.0.log| - 1)
    ensures Ready(a, Ao) && AllSucceed(ok) ==> r.1.Produced?
    decreases Rank(Ao), 1
  {
    var a1 := EnsureHeightThenNormal(a, ok);
    CallAfter(a, a1, Deps(Ao), Ao, [MapInput(a1, Normal), MapInput(a1, Height)], ok)
  }

  /** `generateEdgeMap`: normal first when it is missing. */
  function ProduceEdge(a: App, ok: (MapType, nat) -> bool): (r: (App, Result))
    requires Valid(a)
    ensures Valid(r.0) && Step(a, r.0, Deps(Edge))
    ensures r.1.Produced? <==> LastProduced(a, r.0, Edge)
    ensures r.1.Produced? ==> r.1.image == Generated(|r.0.log| - 1)
    ensures Ready(a, Edge) && AllSucceed(ok) ==> r.1.Produced?
    decreases Rank(Edge), 1
  {
    var a1 := Ensure(a, Normal, true, ok);
    assert Deps(Normal) + {Normal} == {Height, Normal};
    CallAfter(a, a1, Deps(Edge), Edge, [MapInput(a1, Normal)], ok)
  }

  /** `generateCombinedMap`: nothing is generated on its behalf; without all three inputs it returns `null`. */
  function ProduceCombined(a: App, ok: (MapType, nat) -> bool): (r: (App, Result))
    requires Valid(a)
    ensures Valid(r.0) && Step(a, r.0, Deps(Combined))
    ensures r.1.Produced? <==> LastProduced(a, r.0, Combined)
    ensures r.1.Produced? ==> r.1.image == Generated(|r.0.log| - 1)
    ensures !(Ao in a.maps && Roughness in a.maps && Metallic in a.maps) ==> r == (a, NullResult)
    ensures Ao in a.maps && Roughness in a.maps && Metallic in a.maps && AllSucceed(ok) ==> r.1.Produced?
  {
    if Ao in a.maps && Roughness in a.maps && Metallic in a.maps then
      Invoke(a, Combined, [MapInput(a, Ao), MapInput(a, Roughness), MapInput(a, Metallic)], ok)
    else (a, NullResult)
  }

  /** A debounced `generateMap(name)`: unknown names are refused or throw, and either way nothing changes. */
  function GenerateByName(a: App, name: string, ok: (MapType, nat) -> bool): (r: App)
    requires Valid(a)
    ensures Valid(r) && Extends(a, r)
    ensures Parse(name).None? ==> r == a
  {
    match Parse(name)
    case Some(t) => GenerateMap(a, t, ok)
    case None => a
  }

  /** The clock reaches `now`: a due regeneration timer runs its `generateMap`. */
  function Tick(a: App, now: int, ok: (MapType, nat) -> bool): (r: App)
    requires Valid(a)
    ensures Valid(r) && r.tuning == a.tuning && r.hasSource == a.hasSource
    ensures r.renderer == a.renderer || r.renderer == ShowHeight(a)
    ensures a.log <= r.log
    ensures a.regen.pending.None? || now < a.regen.pending.value.due ==> r == a
    ensures a.regen.pending.Some? && a.regen.pending.value.due <= now ==>
              r == GenerateByName(a.(regen := a.regen.(pending := None)), a.regen.pending.value.args, ok)
  {
    var (d, fired) := Advance(a.regen, now);
    var a1 := a.(regen := d);
    if fired.Some? then GenerateByName(a1, fired.value.args, ok) else a1
  }

  /** The order `generateAllMaps` visits the types in. */
  const AllOrder: seq<MapType> := [Height, Normal, Metallic, Roughness, Ao, Edge, Combined]

  /** `generateMap` on each type in turn, each call seeing the maps the previous ones stored. */
  function GenerateEach(a: App, ts: seq<MapType>, ok: (MapType, nat) -> bool): (r: App)
    requires Valid(a)
    ensures Valid(r) && Extends(a, r)
    decreases |ts|
  {
    if |ts| == 0 then a
    else
      var a1 := GenerateMap(a, ts[0], ok);
      var r := GenerateEach(a1, ts[1..], ok);
      assert r.log[..|a.log|] == r.log[..|a1.log|][..|a.log|];
      r
  }

  /** `generateAllMaps`: refused without a source image; otherwise `generateMap` on each of `AllOrder`. */
  function GenerateAllMaps(a: App, ok: (MapType, nat) -> bool): (r: App)
    requires Valid(a)
    ensures Valid(r) && Extends(a, r)
    ensures !a.hasSource ==> r == a
  {
    if !a.hasSource then a else GenerateEach(a, AllOrder, ok)
  }

  /**
   * `clearAll`: every map slot back to `null`; the source image stays loaded,
   * and the renderer's `resetMaterial` zeroes its displacement.
   */
  function ClearAll(a: App): (r: App)
    ensures r.maps == map[]
    ensures r.hasSource == a.hasSource && r.tuning == a.tuning && r.regen == a.regen && r.log == a.log
    ensures r.renderer.Some? <==> a.renderer.Some?
    ensures r.renderer.Some? ==> r.renderer.value == Preview(Num(0.0), a.renderer.value.subdivision)
    ensures Valid(a) ==> Valid(r)
  {
    a.(maps := map[], renderer := if a.renderer.Some? then Some(a.renderer.value.(displacementScale := Num(0.0))) else None)
  }

  /**
   * The state changes of `handleFileSelect`: a missing, mistyped or
   * oversized file is refused; otherwise every tuning value is reset before
   * decoding, and a decoded image becomes the source and the diffuse map.
   * The other stored maps are kept.  Whether decoding succeeds is `decoded`.
   */
  function LoadSource(a: App, file: Option<Utils.Upload>, decoded: bool): (r: App)
    ensures file.None? || !Utils.IsValidImage(file.value) || !Utils.IsValidSize(file.value) ==> r == a
    ensures file.Some? && Utils.IsValidImage(file.value) && Utils.IsValidSize(file.value) ==>
              && r.tuning == InitialTuning
              && r.regen == a.regen && r.log == a.log
              && (r.renderer.Some? <==> a.renderer.Some?)
              && (r.renderer.Some? ==> r.renderer.value == DefaultPreview)
              && (decoded ==> r.hasSource && r.maps == a.maps[Diffuse := SourceCopy])
              && (!decoded ==> r.hasSource == a.hasSource && r.maps == a.maps)
    ensures Valid(a) ==> Valid(r)
  {
    if file.None? || !Utils.IsValidImage(file.value) || !Utils.IsValidSize(file.value) then a
    else
      var a1 := ResetAllTuningParams(a);
      if decoded then a1.(hasSource := true, maps := a1.maps[Diffuse := SourceCopy]) else a1
  }

  // ---------------------------------------------------------------------
  // properties of the map store
  // ---------------------------------------------------------------------

  /** Without a source image, normal with no height map returns `null`: no call, nothing changes. */
  lemma {:induction false} NormalWithoutHeightOrSource(a: App, ok: (MapType, nat) -> bool)
    requires Valid(a) && !a.hasSource && Height !in a.maps
    ensures GenerateMap(a, Normal, ok) == a
  {
  }

  /** With a source and no height map, normal's first act is to generate height. */
  lemma {:induction false} NormalGeneratesHeightFirst(a: App, ok: (MapType, nat) -> bool)
    requires Valid(a) && a.hasSource && Height !in a.maps
    ensures var r := GenerateMap(a, Normal, ok);
            |r.log| > |a.log| && r.log[|a.log|].kind == Height
  {
    var a1 := Ensure(a, Height, true, ok);
    assert a1 == GenerateMap(a, Height, ok);
    var (b, res) := Produce(a, Height, ok);
    assert |b.log| == |a.log| + 1 && b.log[|a.log|].kind == Height;
  }

  /** With a height map present, normal makes exactly one call, reading the stored height map. */
  lemma {:induction false} NormalReadsStoredHeight(a: App, ok: (MapType, nat) -> bool)
    requires Valid(a) && Height in a.maps
    ensures var r := GenerateMap(a, Normal, ok);
            |r.log| == |a.log| + 1 && r.log[|a.log|].kind == Normal
            && r.log[|a.log|].inputs == [FromMap(Height, a.maps[Height])]
  {
  }

  /** Edge with the normal map missing generates normal before its own call. */
  lemma {:induction false} EdgeGeneratesNormalFirst(a: App, ok: (MapType, nat) -> bool)
    requires Valid(a) && Normal !in a.maps && Height in a.maps
    ensures var r := GenerateMap(a, Edge, ok);
            |r.log| == |a.log| + 2 && r.log[|a.log|].kind == Normal && r.log[|a.log| + 1].kind == Edge
  {
    NormalReadsStoredHeight(a, ok);
    var a1 := GenerateMap(a, Normal, ok);
    assert Ensure(a, Normal, true, ok) == a1;
    var p := ProduceEdge(a, ok);
    assert Produce(a, Edge, ok) == p;
    assert GenerateMap(a, Edge, ok).log == p.0.log;
    assert p.0.log[..|a1.log|] == a1.log;
  }

  /** Normal with no height map and succeeding runs: height, then normal, and nothing else. */
  lemma {:induction false} NormalGeneratesHeightThenNormal(a: App, ok: (MapType, nat) -> bool)
    requires Valid(a) && a.hasSource && Height !in a.maps && AllSucceed(ok)
    ensures var r := GenerateMap(a, Normal, ok);
            |r.log| == |a.log| + 2 && r.log[|a.log|].kind == Height && r.log[|a.log| + 1].kind == Normal
  {
    var a1 := GenerateMap(a, Height, ok);
    assert Ensure(a, Height, true, ok) == a1;
    var (b, res) := Produce(a, Height, ok);
    assert b.log[|a.log|].produced;
    assert Height in a1.maps;
    NormalReadsStoredHeight(a1, ok);
  }

  /** Edge with neither dependency and succeeding runs: height, then normal, then edge. */
  lemma {:induction false} EdgeGeneratesHeightThenNormal(a: App, ok: (MapType, nat) -> bool)
    requires Valid(a) && a.hasSource && Height !in a.maps && Normal !in a.maps && AllSucceed(ok)
    ensures var r := GenerateMap(a, Edge, ok);
            |r.log| == |a.log| + 3
            && r.log[|a.log|].kind == Height && r.log[|a.log| + 1].kind == Normal && r.log[|a.log| + 2].kind == Edge
  {
    NormalGeneratesHeightThenNormal(a, ok);
    var a1 := GenerateMap(a, Normal, ok);
    assert Ensure(a, Normal, true, ok) == a1;
    var p := ProduceEdge(a, ok);
    assert Produce(a, Edge, ok) == p;
    assert GenerateMap(a, Edge, ok).log == p.0.log;
    assert p.0.log[..|a1.log|] == a1.log;
  }

  /**
   * With a renderer, succeeding runs and a source, storing a height map sends
   * the height tuning's displacement to the renderer; its subdivision stays.
   */
  lemma {:induction false} HeightResendsDisplacement(a: App, ok: (MapType, nat) -> bool)
    requires Valid(a) && a.hasSource && a.renderer.Some? && AllSucceed(ok)
    ensures var r := GenerateMap(a, Height, ok);
            r.renderer == Some(Preview(a.tuning["height"]["displacementScale"], a.renderer.value.subdivision))
  {
  }

  /** AO with neither dependency: height, then normal, then AO, in that order. */
  lemma {:induction false} AoGeneratesHeightThenNormal(a: App, ok: (MapType, nat) -> bool)
    requires Valid(a) && a.hasSource && Height !in a.maps && Normal !in a.maps && AllSucceed(ok)
    ensures var r := GenerateMap(a, Ao, ok);
            |r.log| == |a.log| + 3
            && r.log[|a.log|].kind == Height && r.log[|a.log| + 1].kind == Normal && r.log[|a.log| + 2].kind == Ao
  {
    var a1 := GenerateMap(a, Height, ok);
    assert Ensure(a, Height, true, ok) == a1;
    var (b, res) := Produce(a, Height, ok);
    assert b.log[|a.log|].produced;
    assert Height in a1.maps;
    NormalReadsStoredHeight(a1, ok);
    assert Ensure(a1, Normal, true, ok) == GenerateMap(a1, Normal, ok);
  }

  /**
   * Roughness with no normal map to be had reads the source image twice: once
   * as diffuse and once in place of the normal map.
   */
  lemma {:induction false} RoughnessFallsBackToSource(a: App, ok: (MapType, nat) -> bool)
    requires Valid(a) && a.hasSource
    ensures var r := GenerateMap(a, Roughness, ok);
            |r.log| > |a.log| && r.log[|r.log| - 1].kind == Roughness
            && (Normal !in r.maps ==> r.log[|r.log| - 1].inputs == [FromSource, FromSource])
            && (Normal in r.maps ==> r.log[|r.log| - 1].inputs == [FromSource, FromMap(Normal, r.maps[Normal])])
  {
    var p := ProduceRoughness(a, ok);
    assert Produce(a, Roughness, ok) == p;
    var r := Store(a, p.0, Roughness, p.1);
    assert GenerateMap(a, Roughness, ok) == r;
    assert r.maps == p.0.maps || r.maps == p.0.maps[Roughness := p.1.image];
  }


  /** A map `generateMap` stores was made with the tuning values in force when it was called. */
  lemma {:induction false} StoredWithCurrentTuning(a: App, t: MapType, ok: (MapType, nat) -> bool)
    requires Valid(a)
    ensures var r := GenerateMap(a, t, ok);
            LastProduced(a, r, t) ==> r.log[|r.log| - 1].params == ParamsFor(a, t)
  {
    if a.hasSource || WorksWithoutSource(t) {
      var p := Produce(a, t, ok);
      ProducedWithCurrentTuning(a, t, ok);
      assert GenerateMap(a, t, ok) == Store(a, p.0, t, p.1);
    }
  }

  /** The call that produced the result of a `generate*Map` read the tuning values of the state it started from. */
  lemma {:induction false} ProducedWithCurrentTuning(a: App, t: MapType, ok: (MapType, nat) -> bool)
    requires Valid(a)
    ensures var p := Produce(a, t, ok);
            p.1.Produced? ==> p.0.log[|p.0.log| - 1].params == ParamsFor(a, t)
  {
    match t
    case Normal =>
      var a1 := Ensure(a, Height, a.hasSource, ok);
      assert Produce(a, t, ok) == ProduceNormal(a, ok);
    case Roughness =>
      var a1 := Ensure(a, Normal, a.hasSource, ok);
      assert Produce(a, t, ok) == ProduceRoughness(a, ok);
    case Ao =>
      var a1 := EnsureHeightThenNormal(a, ok);
      assert Produce(a, t, ok) == ProduceAo(a, ok);
    case Edge =>
      var a1 := Ensure(a, Normal, true, ok);
      assert Produce(a, t, ok) == ProduceEdge(a, ok);
    case _ =>
  }

  /** Combined generates nothing on its own behalf: without AO, roughness and metallic it changes nothing. */
  lemma {:induction false} CombinedNeedsAllThree(a: App, ok: (MapType, nat) -> bool)
    requires Valid(a)
    requires Ao !in a.maps || Roughness !in a.maps || Metallic !in a.maps
    ensures GenerateMap(a, Combined, ok) == a
  {
  }

  /**
   * The loop of `generateAllMaps`: with a source image and generators that
   * never fail, all seven types end up stored, the combined map from the last
   * run.
   */
  lemma {:induction false} GenerateAllStoresEvery(a: App, ok: (MapType, nat) -> bool)
    requires Valid(a) && a.hasSource && AllSucceed(ok)
    ensures var r := GenerateEach(a, AllOrder, ok);
            && (forall t :: t in AllOrder ==> t in r.maps)
            && r.maps[Combined] == Generated(|r.log| - 1)
            && |r.log| >= |a.log| + |AllOrder|
  {
    AllOrderShape();
    CombinedLastStoresEvery(a, AllOrder, ok);
  }

  /** `combined` comes last in `AllOrder`, after its three inputs. */
  lemma AllOrderShape()
    ensures |AllOrder| > 0 && AllOrder[|AllOrder| - 1] == Combined && Combined !in AllOrder[..|AllOrder| - 1]
    ensures Ao in AllOrder[..|AllOrder| - 1] && Roughness in AllOrder[..|AllOrder| - 1] && Metallic in AllOrder[..|AllOrder| - 1]
  {
    assert AllOrder[..|AllOrder| - 1] == [Height, Normal, Metallic, Roughness, Ao, Edge];
  }

  /** A list that ends with `combined`, after its three inputs and nowhere else, stores every type it names. */
  lemma {:induction false} CombinedLastStoresEvery(a: App, ts: seq<MapType>, ok: (MapType, nat) -> bool)
    requires Valid(a) && a.hasSource && AllSucceed(ok)
    requires |ts| > 0 && ts[|ts| - 1] == Combined && Combined !in ts[..|ts| - 1]
    requires Ao in ts[..|ts| - 1] && Roughness in ts[..|ts| - 1] && Metallic in ts[..|ts| - 1]
    ensures var r := GenerateEach(a, ts, ok);
            && (forall t :: t in ts ==> t in r.maps)
            && r.maps[Combined] == Generated(|r.log| - 1)
            && |r.log| >= |a.log| + |ts|
  {
    var first := ts[..|ts| - 1];
    assert ts == first + [Combined];
    EachSnoc(a, first, Combined, ok);
    EachStores(a, first, ok);
    var b := GenerateEach(a, first, ok);
    StoresAndKeeps(b, Combined, ok);
    forall t | t in ts
      ensures t in GenerateMap(b, Combined, ok).maps
    {
      if t != Combined {
        assert t in first;
      }
    }
  }

  /** Running a list of types and then one more is running the longer list. */
  lemma {:induction false} EachSnoc(a: App, ts: seq<MapType>, t: MapType, ok: (MapType, nat) -> bool)
    requires Valid(a)
    ensures GenerateEach(a, ts + [t], ok) == GenerateMap(GenerateEach(a, ts, ok), t, ok)
    decreases |ts|
  {
    if |ts| == 0 {
      assert [] + [t] == [t];
      assert [t][1..] == [];
    } else {
      var a1 := GenerateMap(a, ts[0], ok);
      assert (ts + [t])[0] == ts[0];
      assert (ts + [t])[1..] == ts[1..] + [t];
      EachSnoc(a1, ts[1..], t, ok);
    }
  }

  /** Types other than `combined`, each generated in turn, all end up stored, one run or more each. */
  lemma {:induction false} EachStores(a: App, ts: seq<MapType>, ok: (MapType, nat) -> bool)
    requires Valid(a) && a.hasSource && AllSucceed(ok) && Combined !in ts
    ensures var r := GenerateEach(a, ts, ok);
            && r.hasSource
            && (forall u :: u in a.maps ==> u in r.maps)
            && (forall t :: t in ts ==> t in r.maps)
            && |r.log| >= |a.log| + |ts|
    decreases |ts|
  {
    if |ts| > 0 {
      StoresAndKeeps(a, ts[0], ok);
      var a1 := GenerateMap(a, ts[0], ok);
      assert Combined !in ts[1..];
      EachStores(a1, ts[1..], ok);
      forall t | t in ts
        ensures t in GenerateEach(a, ts, ok).maps
      {
        if t != ts[0] {
          assert t in ts[1..];
        }
      }
    }
  }

  /** One `generateMap` that is ready and cannot fail stores `t` and keeps every map already stored. */
  lemma {:induction false} StoresAndKeeps(a: App, t: MapType, ok: (MapType, nat) -> bool)
    requires Valid(a) && Ready(a, t) && AllSucceed(ok)
    ensures var r := GenerateMap(a, t, ok);
            && Valid(r) && r.hasSource
            && a.maps.Keys + {t} <= r.maps.Keys
            && r.maps[t] == Generated(|r.log| - 1)
            && |r.log| > |a.log|
  {
  }

  /**
   * Edits share the one regeneration timer: a tick before it is due does
   * nothing, and a second edit within 50 ms replaces the first one's
   * regeneration, so only the type edited last is regenerated, with both
   * edits in place.
   */
  lemma {:induction false} EditsCoalesce(a: App, m1: string, p1: string, v1: Value, m2: string, p2: string, v2: Value,
                                         t: int, ok: (MapType, nat) -> bool)
    requires Valid(a) && m1 in a.tuning && m2 in a.tuning && !PreviewOnly(a, m1, p1) && !PreviewOnly(a, m2, p2)
    ensures var b1 := UpdateTuningParam(a, m1, p1, v1, t);
            var b2 := UpdateTuningParam(Tick(b1, t + 20, ok), m2, p2, v2, t + 30);
            && Tick(b1, t + 20, ok) == b1
            && b2.regen.pending == Some(Timer(t + 80, m2))
            && Tick(b2, t + 80, ok) == GenerateByName(b2.(regen := b2.regen.(pending := None)), m2, ok)
  {
  }
}

=== FILE: base.dfy ===
/** Small vocabulary shared by every other module. */
module Base {

  /** JavaScript's `null`-or-value, as the source uses it for maps, images and timers. */
  datatype Option<+T> = None | Some(value: T)

  /** One channel of an 8-bit RGBA buffer (a `Uint8Array` element). */
  newtype byte = x: int | 0 <= x < 256

  function Min(a: real, b: real): real { if a <= b then a else b }

  function Max(a: real, b: real): real { if a >= b then a else b }

  function Abs(a: real): real { if a < 0.0 then -a else a }

  /** A tuning value: every parameter is a number except the normal map's `type`. */
  datatype Value = Num(x: real) | Text(s: string)

  /** A JavaScript object of tuning values or generator options. */
  type Params = map<string, Value>
}

=== FILE: gpu.dfy ===
/**
 * `ImageProcessor` with WebGL abstracted to a resource ledger: the set of
 * live texture handles, the lazily created `main` framebuffer and a log of
 * draw calls with the uniforms each one bound.  Pixel values are the
 * business of the `Kernels` module; here an image is only its size.
 */
module Gpu {
  import opened Base

  type Handle = nat

  /** A source image, canvas or read-back buffer, as far as the ledger cares. */
  datatype Image = Image(width: nat, height: nat)

  /** The compiled fragment programs, one per shader. */
  datatype Program =
    | AdjustLevels | HeightFromDiffuse | NormalFromHeight | EdgeFromNormal | AoFromNormal
    | MetallicGenerator | RoughnessGenerator | GaussianBlur | CombineOrm

  /** A value in a `render` uniforms object. */
  datatype UniformValue =
    | TextureRef(handle: Handle)   // `{ texture: t }`
    | Number(x: real)              // a JavaScript number
    | Array(xs: seq<real>)         // a JavaScript array of numbers
    | Other                        // anything else: a string, an object without `texture`

  /** A uniform as `render` meets it: whether `getUniformLocation` found it is decided by the program. */
  datatype Uniform = Uniform(name: string, value: UniformValue, located: bool)

  /** What one `gl.uniform*` call set. */
  datatype Binding =
    | Sampler(name: string, unit: nat, handle: Handle)   // `activeTexture` + `bindTexture` + `uniform1i`
    | Float(name: string, x: real)                       // `uniform1f`
    | Vector(name: string, xs: seq<real>)                // `uniform2fv` / `uniform3fv` / `uniform4fv`

  datatype Draw = Draw(program: Program, bindings: seq<Binding>)

  datatype Device = Device(
    live: set<Handle>,            // textures created and not yet deleted
    next: Handle,                 // the handle the next `createTexture` returns
    framebuffer: Option<nat>,     // `framebuffers.main`
    framebuffersCreated: nat,     // how many times `createFramebuffer` ran
    draws: seq<Draw>)

  /** Handles are fresh, and the one framebuffer exists exactly when it was created. */
  predicate Valid(d: Device) {
    (forall h :: h in d.live ==> h < d.next)
    && d.framebuffersCreated == (if d.framebuffer.Some? then 1 else 0)
  }

  const Initial: Device := Device({}, 0, None, 0, [])

  lemma InitialValid()
    ensures Valid(Initial) && Initial.live == {}
  {
  }

  predicate InSpan(lo: nat, hi: nat, h: nat) {
    lo <= h < hi
  }

  /** The handles `lo .. hi-1`. */
  function Span(lo: nat, hi: nat): set<Handle> {
    set h: nat | lo <= h < hi && InSpan(lo, hi, h)
  }

  function Elems(hs: seq<Handle>): set<Handle> {
    set h | h in hs
  }

  /** The ledger apart from textures: framebuffer and draw log. */
  predicate SameFramebuffer(d: Device, e: Device) {
    d.framebuffer == e.framebuffer && d.framebuffersCreated == e.framebuffersCreated
  }

  // ---------------------------------------------------------------------
  // texture and framebuffer primitives
  // ---------------------------------------------------------------------

  /**
   * `createTexture`: `gl.createTexture()` always runs; reading the size of a
   * `null` image then throws (`None`), with the new texture still live.
   */
  function CreateTexture(d: Device, img: Option<Image>): (r: (Device, Option<Handle>))
    ensures r.0.live == d.live + {d.next} && r.0.next == d.next + 1
    ensures SameFramebuffer(r.0, d) && r.0.draws == d.draws
    ensures Valid(d) ==> Valid(r.0) && d.next !in d.live
    ensures r.1.Some? <==> img.Some?
    ensures r.1.Some? ==> r.1.value == d.next
  {
    var d1 := d.(live := d.live + {d.next}, next := d.next + 1);
    if img.Some? then (d1, Some(d.next)) else (d1, None)
  }

  /** `gl.deleteTexture`: deleting a texture that is already gone does nothing. */
  function DeleteTexture(d: Device, h: Handle): (r: Device)
    ensures r.live == d.live - {h} && r.next == d.next
    ensures SameFramebuffer(r, d) && r.draws == d.draws
    ensures Valid(d) ==> Valid(r)
  {
    d.(live := d.live - {h})
  }

  lemma DeleteTwice(d: Device, h: Handle)
    ensures DeleteTexture(DeleteTexture(d, h), h) == DeleteTexture(d, h)
  {
  }

  /**
   * `setRenderTarget`: rendering into a texture binds `framebuffers.main`,
   * creating it on first use only; rendering to the canvas binds none.
   */
  function SetRenderTarget(d: Device, target: Option<Handle>): (r: Device)
    ensures r.live == d.live && r.next == d.next && r.draws == d.draws
    ensures Valid(d) ==> Valid(r)
    ensures target.Some? ==> r.framebuffer.Some?
    ensures d.framebuffer.Some? || target.None? ==> SameFramebuffer(r, d)
    ensures r.framebuffersCreated <= d.framebuffersCreated + 1
  {
    if target.Some? && d.framebuffer.None? then
      d.(framebuffer := Some(d.framebuffersCreated), framebuffersCreated := d.framebuffersCreated + 1)
    else d
  }

  /** Creates textures for `imgs` in order, stopping (and throwing) at the first `null`. */
  function CreateAll(d: Device, imgs: seq<Option<Image>>): (r: (Device, Option<seq<Handle>>))
    ensures d.next <= r.0.next && r.0.live == d.live + Span(d.next, r.0.next)
    ensures SameFramebuffer(r.0, d) && r.0.draws == d.draws
    ensures Valid(d) ==> Valid(r.0)
    ensures r.1.Some? <==> forall i :: 0 <= i < |imgs| ==> imgs[i].Some?
    ensures r.1.Some? ==> |r.1.value| == |imgs| && r.0.next == d.next + |imgs|
                          && Elems(r.1.value) == Span(d.next, r.0.next)
    decreases |imgs|
  {
    if |imgs| == 0 then (d, Some([]))
    else
      var (d1, h) := CreateTexture(d, imgs[0]);
      if h.None? then (d1, None)
      else
        var (d2, hs) := CreateAll(d1, imgs[1..]);
        assert forall i :: 1 <= i < |imgs| ==> imgs[i] == imgs[1..][i - 1];
        assert Span(d.next, d2.next) == {d.next} + Span(d1.next, d2.next);
        if hs.Some? then
          assert Elems([h.value] + hs.value) == {h.value} + Elems(hs.value);
          (d2, Some([h.value] + hs.value))
        else (d2, None)
  }

  /** Deletes `hs` in order. */
  function DeleteAll(d: Device, hs: seq<Handle>): (r: Device)
    ensures r.live == d.live - Elems(hs) && r.next == d.next
    ensures SameFramebuffer(r, d) && r.draws == d.draws
    ensures Valid(d) ==> Valid(r)
    decreases |hs|
  {
    if |hs| == 0 then d
    else
      assert Elems(hs) == {hs[0]} + Elems(hs[1..]);
      DeleteAll(DeleteTexture(d, hs[0]), hs[1..])
  }

  // ---------------------------------------------------------------------
  // render: uniform classification and texture units
  // ---------------------------------------------------------------------

  /** How many texture units `uniform` takes: one for a located texture, none otherwise. */
  function UnitsTaken(u: Uniform): nat {
    if u.located && u.value.TextureRef? then 1 else 0
  }

  /** Whether `render` binds a located uniform with this value at all. */
  predicate Bindable(v: UniformValue) {
    v.TextureRef? || v.Number? || (v.Array? && 2 <= |v.xs| <= 4)
  }

  /** `binding` is what `render` sets for a uniform named `name` holding `v`. */
  predicate BindsAs(name: string, v: UniformValue, binding: Binding) {
    binding.name == name
    && match v
       case TextureRef(t) => binding.Sampler? && binding.handle == t
       case Number(x) => binding == Float(name, x)
       case Array(xs) => 2 <= |xs| <= 4 && binding == Vector(name, xs)
       case Other => false
  }

  /**
   * The `Object.keys(uniforms).forEach` loop of `render`, starting at texture
   * unit `unit`: no location means skip, a texture takes the next unit, a
   * number is a float, an array of 2, 3 or 4 numbers a vector, anything else
   * is passed over.
   */
  function Bind(us: seq<Uniform>, unit: nat): (bs: seq<Binding>)
    ensures |bs| <= |us|
    decreases |us|
  {
    if |us| == 0 then []
    else BindOne(us[0], unit) + Bind(us[1..], unit + UnitsTaken(us[0]))
  }

  /** One step of that loop: a located texture takes unit `unit`. */
  function BindOne(u: Uniform, unit: nat): (bs: seq<Binding>)
    ensures |bs| == (if u.located && Bindable(u.value) then 1 else 0)
    ensures |bs| == 1 ==> BindsAs(u.name, u.value, bs[0])
    ensures Units(bs) == Range(unit, UnitsTaken(u))
  {
    if !u.located then []
    else match u.value
      case TextureRef(t) => [Sampler(u.name, unit, t)]
      case Number(x) => [Float(u.name, x)]
      case Array(xs) => if 2 <= |xs| <= 4 then [Vector(u.name, xs)] else []
      case Other => []
  }

  /** The texture units of the sampler bindings, in order. */
  function Units(bs: seq<Binding>): seq<nat>
    decreases |bs|
  {
    if |bs| == 0 then []
    else (if bs[0].Sampler? then [bs[0].unit] else []) + Units(bs[1..])
  }

  /** Located texture uniforms. */
  function TextureCount(us: seq<Uniform>): nat
    decreases |us|
  {
    if |us| == 0 then 0 else UnitsTaken(us[0]) + TextureCount(us[1..])
  }

  function Range(lo: nat, n: nat): (s: seq<nat>)
    ensures |s| == n && forall i :: 0 <= i < n ==> s[i] == lo + i
  {
    seq(n, i requires 0 <= i < n => lo + i)
  }

  lemma UnitsAppend(a: seq<Binding>, b: seq<Binding>)
    ensures Units(a + b) == Units(a) + Units(b)
    decreases |a|
  {
    if |a| > 0 {
      assert (a + b)[0] == a[0];
      assert (a + b)[1..] == a[1..] + b;
      UnitsAppend(a[1..], b);
    } else {
      assert a + b == b;
    }
  }

  /** Texture units are handed out 0, 1, 2, … to the located textures, in key order, and to nothing else. */
  lemma {:induction false} UnitsConsecutive(us: seq<Uniform>, unit: nat)
    ensures Units(Bind(us, unit)) == Range(unit, TextureCount(us))
    decreases |us|
  {
    if |us| > 0 {
      var u := us[0];
      UnitsConsecutive(us[1..], unit + UnitsTaken(u));
      var rest := Bind(us[1..], unit + UnitsTaken(u));
      var here := BindOne(u, unit);
      UnitsAppend(here, rest);
      assert Range(unit, UnitsTaken(u)) + Range(unit + UnitsTaken(u), TextureCount(us[1..]))
          == Range(unit, TextureCount(us));
    }
  }

  /** Some located uniform of `us` binds as `b`. */
  predicate FromLocated(us: seq<Uniform>, b: Binding) {
    exists i :: 0 <= i < |us| && us[i].located && BindsAs(us[i].name, us[i].value, b)
  }

  /** Some binding of `bs` is the one for a uniform `name` holding `v`. */
  predicate BoundIn(bs: seq<Binding>, name: string, v: UniformValue) {
    exists j :: 0 <= j < |bs| && BindsAs(name, v, bs[j])
  }

  /** Every binding comes from a located uniform, in the way that uniform's value dictates. */
  lemma {:induction false} BindSound(us: seq<Uniform>, unit: nat)
    ensures forall j :: 0 <= j < |Bind(us, unit)| ==> FromLocated(us, Bind(us, unit)[j])
    decreases |us|
  {
    if |us| > 0 {
      var u := us[0];
      BindSound(us[1..], unit + UnitsTaken(u));
      var bs := Bind(us, unit);
      var rest := Bind(us[1..], unit + UnitsTaken(u));
      var k := |BindOne(u, unit)|;
      assert bs == BindOne(u, unit) + rest;
      forall j | 0 <= j < |bs|
        ensures FromLocated(us, bs[j])
      {
        if j < k {
          assert bs[j] == BindOne(u, unit)[0];
          assert us[0].located && BindsAs(us[0].name, us[0].value, bs[j]);
        } else {
          assert bs[j] == rest[j - k];
          assert FromLocated(us[1..], rest[j - k]);
          var i :| 0 <= i < |us[1..]| && us[1..][i].located && BindsAs(us[1..][i].name, us[1..][i].value, rest[j - k]);
          assert us[i + 1] == us[1..][i];
        }
      }
    }
  }

  /** Every located uniform with a bindable value is bound; the others produce nothing. */
  lemma {:induction false} BindComplete(us: seq<Uniform>, unit: nat)
    ensures forall i :: 0 <= i < |us| && us[i].located && Bindable(us[i].value) ==>
              BoundIn(Bind(us, unit), us[i].name, us[i].value)
    ensures |Bind(us, unit)| == BindableCount(us)
    decreases |us|
  {
    if |us| > 0 {
      var u := us[0];
      BindComplete(us[1..], unit + UnitsTaken(u));
      var bs := Bind(us, unit);
      var rest := Bind(us[1..], unit + UnitsTaken(u));
      var k := |BindOne(u, unit)|;
      assert bs == BindOne(u, unit) + rest;
      forall i | 0 <= i < |us| && us[i].located && Bindable(us[i].value)
        ensures BoundIn(bs, us[i].name, us[i].value)
      {
        if i == 0 {
          assert bs[0] == BindOne(u, unit)[0];
          assert BindsAs(u.name, u.value, bs[0]);
        } else {
          assert us[i] == us[1..][i - 1];
          assert BoundIn(rest, us[i].name, us[i].value);
          var j :| 0 <= j < |rest| && BindsAs(us[i].name, us[i].value, rest[j]);
          assert bs[j + k] == rest[j];
        }
      }
    }
  }

  /** Located uniforms with a bindable value. */
  function BindableCount(us: seq<Uniform>): nat
    decreases |us|
  {
    if |us| == 0 then 0
    else (if us[0].located && Bindable(us[0].value) then 1 else 0) + BindableCount(us[1..])
  }

  /** Dropping the uniforms that have no location changes nothing: they use no unit and bind nothing. */
  lemma {:induction false} UnlocatedIgnored(us: seq<Uniform>, unit: nat)
    ensures Bind(us, unit) == Bind(Located(us), unit)
    decreases |us|
  {
    if |us| > 0 {
      UnlocatedIgnored(us[1..], unit + UnitsTaken(us[0]));
      if us[0].located {
        assert Located(us) == [us[0]] + Located(us[1..]);
        assert Located(us)[0] == us[0] && Located(us)[1..] == Located(us[1..]);
      } else {
        assert Located(us) == Located(us[1..]);
        assert BindOne(us[0], unit) == [] && UnitsTaken(us[0]) == 0;
      }
    }
  }

  function Located(us: seq<Uniform>): (r: seq<Uniform>)
    ensures forall i :: 0 <= i < |r| ==> r[i].located
    decreases |us|
  {
    if |us| == 0 then []
    else (if us[0].located then [us[0]] else []) + Located(us[1..])
  }

  /** The uniforms object as `render` sees it, each key looked up in `program`. */
  function Locate(located: (Program, string) -> bool, program: Program,
                  entries: seq<(string, UniformValue)>): (us: seq<Uniform>)
    ensures |us| == |entries|
    ensures forall i :: 0 <= i < |us| ==> us[i].name == entries[i].0 && us[i].value == entries[i].1
  {
    seq(|entries|, i requires 0 <= i < |entries| => Uniform(entries[i].0, entries[i].1, located(program, entries[i].0)))
  }

  /** `render`: one draw call whose bindings start at texture unit 0. */
  function Render(d: Device, located: (Program, string) -> bool, program: Program,
                  entries: seq<(string, UniformValue)>): (r: Device)
    ensures r.live == d.live && r.next == d.next && SameFramebuffer(r, d)
    ensures Valid(d) ==> Valid(r)
    ensures r.draws == d.draws + [Draw(program, Bind(Locate(located, program, entries), 0))]
  {
    d.(draws := d.draws + [Draw(program, Bind(Locate(located, program, entries), 0))])
  }

  // ---------------------------------------------------------------------
  // options, uniforms per generator, readPixels
  // ---------------------------------------------------------------------

  /** `{ ...defaults, ...options }`. */
  function Merge(defaults: Params, options: Params): (p: Params)
    ensures forall k :: k in p <==> k in defaults || k in options
    ensures forall k :: k in options ==> p[k] == options[k]
    ensures forall k :: k in defaults && k !in options ==> p[k] == defaults[k]
  {
    defaults + options
  }

  lemma MergeIdempotent(defaults: Params, options: Params)
    ensures Merge(Merge(defaults, options), options) == Merge(defaults, options)
    ensures Merge(defaults, map[]) == defaults
  {
  }

  /** A merged parameter as a uniform value: numbers bind, strings do not. */
  function Param(p: Params, key: string): UniformValue {
    if key in p then (match p[key] case Num(x) => Number(x) case Text(_) => Other) else Other
  }

  /** The value under `name` in a uniforms object, if any. */
  function Find(entries: seq<(string, UniformValue)>, name: string): (v: Option<UniformValue>)
    ensures v.Some? <==> exists i :: 0 <= i < |entries| && entries[i].0 == name
    decreases |entries|
  {
    if |entries| == 0 then None
    else if entries[0].0 == name then Some(entries[0].1)
    else
      var v := Find(entries[1..], name);
      assert forall i :: 1 <= i < |entries| ==> entries[i] == entries[1..][i - 1];
      v
  }

  /** `Find` returns the value of the first entry with that name. */
  lemma {:induction false} FindFirst(entries: seq<(string, UniformValue)>, name: string, i: nat)
    requires i < |entries| && entries[i].0 == name
    requires forall j :: 0 <= j < i ==> entries[j].0 != name
    ensures Find(entries, name) == Some(entries[i].1)
    decreases i
  {
    if i > 0 {
      FindFirst(entries[1..], name, i - 1);
    }
  }

  const DiffuseDefaults: Params :=
    map["brightness" := Num(0.0), "contrast" := Num(1.0), "saturation" := Num(1.0), "hue" := Num(0.0)]
  const HeightDefaults: Params :=
    map["blur0Weight" := Num(0.15), "blur1Weight" := Num(0.19), "blur2Weight" := Num(0.24),
        "blur3Weight" := Num(0.42), "finalGain" := Num(0.0), "intensity" := Num(2.0)]
  const NormalDefaults: Params :=
    map["strength" := Num(2.0), "step" := Num(1.0), "levelBlur" := Num(0.0), "type" := Text("opengl")]
  const EdgeDefaults: Params := map["edgeStrength" := Num(2.0), "threshold" := Num(0.1)]
  const AoDefaults: Params := map["aoStrength" := Num(1.0), "aoSpread" := Num(3.0), "aoSamples" := Num(16.0)]
  const MetallicDefaults: Params := map["threshold" := Num(0.5), "smoothness" := Num(0.1)]
  const RoughnessDefaults: Params := map["baseRoughness" := Num(0.3), "normalInfluence" := Num(0.5)]

  /** Height gets `finalGain = 0` unless the caller passes one, and the application never does. */
  lemma HeightFinalGainDefault(options: Params)
    requires "finalGain" !in options
    ensures Merge(HeightDefaults, options)["finalGain"] == Num(0.0)
  {
  }

  function Resolution(w: nat, h: nat): (string, UniformValue) {
    ("u_resolution", Array([w as real, h as real]))
  }

  /** The non-texture uniforms of `generateNormalMap`. */
  function NormalScalars(p: Params, w: nat, h: nat): seq<(string, UniformValue)> {
    [("u_strength", Param(p, "strength")), ("u_step", Param(p, "step")),
     ("u_invertR", Number(0.0)),
     ("u_invertG", Number(if "type" in p && p["type"] == Text("directx") then 1.0 else 0.0)),
     Resolution(w, h)]
  }

  /**
   * The Y flip is on exactly for the DirectX convention, whichever way the
   * options say so, and the X flip is never on.
   */
  lemma NormalInvertFlags(options: Params, w: nat, h: nat)
    ensures var s := NormalScalars(Merge(NormalDefaults, options), w, h);
            Find(s, "u_invertG") == Some(Number(if "type" in options && options["type"] == Text("directx") then 1.0 else 0.0))
            && Find(s, "u_invertR") == Some(Number(0.0))
  {
    var s := NormalScalars(Merge(NormalDefaults, options), w, h);
    assert "u_strength"[2] != "u_invertG"[2] && "u_step"[2] != "u_invertG"[2] && "u_invertR"[8] != "u_invertG"[8];
    assert "u_strength"[2] != "u_invertR"[2] && "u_step"[2] != "u_invertR"[2];
    FindFirst(s, "u_invertG", 3);
    FindFirst(s, "u_invertR", 2);
  }

  /** The read-back buffer: RGBA bytes, row after row, tagged with its size. */
  datatype PixelData = PixelData(data: seq<byte>, width: nat, height: nat)

  /**
   * `readPixels(width, height)`: a `width * height * 4` byte buffer filled
   * from the bound framebuffer, whose content the model takes as `frame`.
   */
  function ReadPixels(frame: (nat, nat, nat) -> byte, width: nat, height: nat): (p: PixelData)
    ensures |p.data| == width * height * 4 && p.width == width && p.height == height
    ensures forall x, y, c :: 0 <= x < width && 0 <= y < height && 0 <= c < 4 ==>
              Offset(width, x, y, c) < |p.data| && p.data[Offset(width, x, y, c)] == frame(x, y, c)
  {
    var n := width * height * 4;
    if width == 0 then PixelData([], width, height)
    else
      PixelLayout(frame, width, height);
      PixelData(seq(n, i requires 0 <= i < n => PixelByte(frame, width, i)), width, height)
  }

  /** Where channel `c` of pixel `(x, y)` sits in a row-major RGBA buffer. */
  function Offset(width: nat, x: nat, y: nat, c: nat): nat {
    (y * width + x) * 4 + c
  }

  /** Byte `i` of a row-major RGBA buffer `width` pixels wide. */
  function PixelByte(frame: (nat, nat, nat) -> byte, width: nat, i: nat): byte
    requires width > 0
  {
    frame((i / 4) % width, (i / 4) / width, i % 4)
  }

  lemma PixelLayout(frame: (nat, nat, nat) -> byte, width: nat, height: nat)
    requires width > 0
    ensures forall x, y, c :: 0 <= x < width && 0 <= y < height && 0 <= c < 4 ==>
              Offset(width, x, y, c) < width * height * 4 && PixelByte(frame, width, Offset(width, x, y, c)) == frame(x, y, c)
  {
    forall x, y, c | 0 <= x < width && 0 <= y < height && 0 <= c < 4
      ensures Offset(width, x, y, c) < width * height * 4 && PixelByte(frame, width, Offset(width, x, y, c)) == frame(x, y, c)
    {
      PixelIndex(x, y, c, width, height);
    }
  }

  lemma PixelIndex(x: nat, y: nat, c: nat, width: nat, height: nat)
    requires x < width && y < height && c < 4
    ensures var i := (y * width + x) * 4 + c;
            i < width * height * 4 && i / 4 == y * width + x && i % 4 == c
            && (i / 4) % width == x && (i / 4) / width == y
  {
    var p := y * width + x;
    RowBelow(x, y, width, height);
    DivUnique(p * 4 + c, 4, p, c);
    DivUnique(p, width, y, x);
    assert p * 4 + c < width * height * 4 by { TimesFourBelow(p, c, width * height); }
  }

  lemma RowBelow(x: nat, y: nat, width: nat, height: nat)
    requires x < width && y < height
    ensures y * width + x < width * height
  {
    assert (height - y - 1) * width >= 0 by { MulNatNonNegative(height - y - 1, width); }
    assert width * height == (height - y - 1) * width + y * width + width;
  }

  lemma TimesFourBelow(p: nat, c: nat, n: nat)
    requires p < n && c < 4
    ensures p * 4 + c < n * 4
  {
  }

  lemma MulNatNonNegative(a: nat, b: nat)
    ensures a * b >= 0
  {
  }

  /** Euclidean division is determined by quotient and remainder. */
  lemma DivUnique(i: nat, d: nat, q: nat, r: nat)
    requires d > 0 && i == q * d + r && r < d
    ensures i / d == q && i % d == r
  {
    var q' := i / d;
    var r' := i % d;
    assert i == q' * d + r';
    assert (q' - q) * d == r - r';
    MultipleBounds(q' - q, d);
  }

  /** A non-zero multiple of `d` is at least `d` away from zero. */
  lemma MultipleBounds(k: int, d: int)
    requires d >= 0
    ensures k >= 1 ==> k * d >= d
    ensures k <= -1 ==> k * d <= -d
  {
    if k >= 1 {
      assert k * d == (k - 1) * d + d;
      MulNatNonNegative(k - 1, d);
    } else if k <= -1 {
      assert k * d == -((-k - 1) * d) - d;
      MulNatNonNegative(-k - 1, d);
    }
  }

  // ---------------------------------------------------------------------
  // synthesis methods
  // ---------------------------------------------------------------------

  /** A synthesis call either returns its read-back image or throws, leaving the device as it was then. */
  datatype Outcome = Done(dev: Device, image: Image) | Threw(dev: Device)

  predicate AllPresent(imgs: seq<Option<Image>>) {
    forall i :: 0 <= i < |imgs| ==> imgs[i].Some?
  }

  function TextureEntries(names: seq<string>, hs: seq<Handle>): (es: seq<(string, UniformValue)>)
    requires |names| == |hs|
    ensures |es| == |names|
  {
    seq(|names|, i requires 0 <= i < |names| => (names[i], TextureRef(hs[i])))
  }

  /**
   * The shape every single-pass synthesis method shares: one texture per
   * input in order, an output texture, render into it, read back, then
   * delete the inputs and the output.
   */
  function Pass(d: Device, located: (Program, string) -> bool, program: Program,
                inputs: seq<Option<Image>>, names: seq<string>,
                scalars: seq<(string, UniformValue)>, w: nat, h: nat): (r: Outcome)
    requires |names| == |inputs|
    ensures r.Done? <==> AllPresent(inputs)
    ensures Valid(d) ==> Valid(r.dev)
    ensures Valid(d) && r.Done? ==> r.dev.live == d.live
    ensures r.Threw? ==> r.dev.live == d.live + Span(d.next, r.dev.next)
    ensures d.framebuffer.Some? ==> SameFramebuffer(r.dev, d)
    ensures r.Done? ==> r.dev.framebuffer.Some? && r.image == Image(w, h)
    ensures r.Done? ==> |r.dev.draws| == |d.draws| + 1 && r.dev.draws[|d.draws|].program == program
    ensures r.Threw? ==> r.dev.draws == d.draws && SameFramebuffer(r.dev, d)
  {
    var (d1, hs) := CreateAll(d, inputs);
    if hs.None? then Threw(d1)
    else
      var (d2, out) := CreateTexture(d1, Some(Image(w, h)));
      var d3 := SetRenderTarget(d2, out);
      var d4 := Render(d3, located, program, TextureEntries(names, hs.value) + scalars);
      var d5 := DeleteAll(d4, hs.value + [out.value]);
      assert Elems(hs.value + [out.value]) == Elems(hs.value) + {out.value};
      assert Span(d.next, d2.next) == Span(d.next, d1.next) + {d1.next};
      Done(d5, Image(w, h))
  }

  /** The image a method reads its output size from; `null` throws before anything is created. */
  function SizeOf(img: Option<Image>): (s: (nat, nat)) {
    if img.Some? then (img.value.width, img.value.height) else (0, 0)
  }

  /** `processDiffuse`: brightness, contrast, saturation and hue through `adjustLevels`. */
  function ProcessDiffuse(d: Device, located: (Program, string) -> bool, source: Option<Image>, options: Params): (r: Outcome)
    ensures r.Done? <==> source.Some?
    ensures Valid(d) ==> Valid(r.dev)
    ensures Valid(d) && r.Done? ==> r.dev.live == d.live
    ensures source.None? ==> r.dev == d
    ensures r.Done? ==> r.image == source.value
    ensures d.framebuffer.Some? ==> SameFramebuffer(r.dev, d)
  {
    if source.None? then Threw(d)
    else
      var p := Merge(DiffuseDefaults, options);
      var (w, h) := SizeOf(source);
      Pass(d, located, AdjustLevels, [source], ["u_image"],
           [("u_brightness", Param(p, "brightness")), ("u_contrast", Param(p, "contrast")),
            ("u_saturation", Param(p, "saturation")), ("u_hue", Param(p, "hue"))], w, h)
  }

  /** `generateHeightMap`. */
  function GenerateHeightMap(d: Device, located: (Program, string) -> bool, source: Option<Image>, options: Params): (r: Outcome)
    ensures r.Done? <==> source.Some?
    ensures Valid(d) ==> Valid(r.dev)
    ensures Valid(d) && r.Done? ==> r.dev.live == d.live
    ensures source.None? ==> r.dev == d
    ensures r.Done? ==> r.image == source.value
    ensures d.framebuffer.Some? ==> SameFramebuffer(r.dev, d)
  {
    if source.None? then Threw(d)
    else
      var p := Merge(HeightDefaults, options);
      var (w, h) := SizeOf(source);
      Pass(d, located, HeightFromDiffuse, [source], ["u_image"],
           [("u_blur0Weight", Param(p, "blur0Weight")), ("u_blur1Weight", Param(p, "blur1Weight")),
            ("u_blur2Weight", Param(p, "blur2Weight")), ("u_blur3Weight", Param(p, "blur3Weight")),
            ("u_finalGain", Param(p, "finalGain")), ("u_intensity", Param(p, "intensity")),
            Resolution(w, h)], w, h)
  }

  /**
   * `applyGaussianBlur`: input, temporary and output textures; a horizontal
   * pass into the temporary one and a vertical pass into the output.
   */
  function ApplyGaussianBlur(d: Device, located: (Program, string) -> bool, image: Option<Image>, blurSize: UniformValue): (r: Outcome)
    ensures r.Done? <==> image.Some?
    ensures Valid(d) ==> Valid(r.dev)
    ensures Valid(d) && r.Done? ==> r.dev.live == d.live
    ensures image.None? ==> r.dev == d
    ensures r.Done? ==> r.image == image.value && r.dev.framebuffer.Some?
    ensures r.Done? ==> r.dev.next == d.next + 3 && |r.dev.draws| == |d.draws| + 2
    ensures r.Done? ==> r.dev.draws[|d.draws|].program == GaussianBlur && r.dev.draws[|d.draws| + 1].program == GaussianBlur
    ensures r.Done? && located(GaussianBlur, "u_direction") ==>
              && Vector("u_direction", [1.0, 0.0]) in r.dev.draws[|d.draws|].bindings
              && Vector("u_direction", [0.0, 1.0]) in r.dev.draws[|d.draws| + 1].bindings
    ensures d.framebuffer.Some? ==> SameFramebuffer(r.dev, d)
  {
    if image.None? then Threw(d)
    else
      var (w, h) := SizeOf(image);
      var (d1, hs) := CreateAll(d, [image, Some(Image(w, h)), Some(Image(w, h))]);
      assert AllPresent([image, Some(Image(w, h)), Some(Image(w, h))]);
      var input, temp, output := hs.value[0], hs.value[1], hs.value[2];
      var d2 := SetRenderTarget(d1, Some(temp));
      var d3 := Render(d2, located, GaussianBlur,
                       [("u_image", TextureRef(input)), ("u_direction", Array([1.0, 0.0])),
                        Resolution(w, h), ("u_blurSize", blurSize)]);
      var d4 := SetRenderTarget(d3, Some(output));
      var d5 := Render(d4, located, GaussianBlur,
                       [("u_image", TextureRef(temp)), ("u_direction", Array([0.0, 1.0])),
                        Resolution(w, h), ("u_blurSize", blurSize)]);
      var d6 := DeleteAll(d5, [input, temp, output]);
      assert Elems([input, temp, output]) == Elems(hs.value);
      SecondBound(Locate(located, GaussianBlur, [("u_image", TextureRef(input)), ("u_direction", Array([1.0, 0.0])),
                                                 Resolution(w, h), ("u_blurSize", blurSize)]), 0);
      SecondBound(Locate(located, GaussianBlur, [("u_image", TextureRef(temp)), ("u_direction", Array([0.0, 1.0])),
                                                 Resolution(w, h), ("u_blurSize", blurSize)]), 0);
      Done(d6, Image(w, h))
  }

  /** The second uniform, when located and an array of 2 to 4 numbers, is set as that vector. */
  lemma SecondBound(us: seq<Uniform>, unit: nat)
    requires |us| >= 2 && us[1].value.Array? && 2 <= |us[1].value.xs| <= 4
    ensures us[1].located ==> Vector(us[1].name, us[1].value.xs) in Bind(us, unit)
  {
    var rest := us[1..];
    assert rest[0] == us[1];
    assert Bind(rest, unit + UnitsTaken(us[0])) == BindOne(us[1], unit + UnitsTaken(us[0])) + Bind(rest[1..], unit + UnitsTaken(us[0]) + UnitsTaken(us[1]));
    assert Bind(us, unit) == BindOne(us[0], unit) + Bind(rest, unit + UnitsTaken(us[0]));
  }

  /** `params.levelBlur > 0.0`, a non-numeric string never counting as positive. */
  function LevelBlur(p: Params): real {
    if "levelBlur" in p && p["levelBlur"].Num? then p["levelBlur"].x else 0.0
  }

  /**
   * `generateNormalMap`: optionally blurs the height map first (a nested
   * synthesis call with its own textures), then one Sobel pass.
   */
  function GenerateNormalMap(d: Device, located: (Program, string) -> bool, heightImage: Option<Image>, options: Params): (r: Outcome)
    ensures r.Done? <==> heightImage.Some?
    ensures Valid(d) ==> Valid(r.dev)
    ensures Valid(d) && r.Done? ==> r.dev.live == d.live
    ensures heightImage.None? ==> r.dev == d
    ensures r.Done? ==> r.image == heightImage.value
    ensures r.Done? ==> |r.dev.draws| > 0 && r.dev.draws[|r.dev.draws| - 1].program == NormalFromHeight
    ensures d.framebuffer.Some? ==> SameFramebuffer(r.dev, d)
  {
    if heightImage.None? then Threw(d)
    else
      var p := Merge(NormalDefaults, options);
      var (w, h) := SizeOf(heightImage);
      var blurred := if LevelBlur(p) > 0.0 then ApplyGaussianBlur(d, located, heightImage, Param(p, "levelBlur"))
                     else Done(d, heightImage.value);
      Pass(blurred.dev, located, NormalFromHeight, [Some(blurred.image)], ["u_heightMap"], NormalScalars(p, w, h), w, h)
  }

  /** `generateEdgeMap`. */
  function GenerateEdgeMap(d: Device, located: (Program, string) -> bool, normalImage: Option<Image>, options: Params): (r: Outcome)
    ensures r.Done? <==> normalImage.Some?
    ensures Valid(d) ==> Valid(r.dev)
    ensures Valid(d) && r.Done? ==> r.dev.live == d.live
    ensures normalImage.None? ==> r.dev == d
    ensures r.Done? ==> r.image == normalImage.value
    ensures d.framebuffer.Some? ==> SameFramebuffer(r.dev, d)
  {
    if normalImage.None? then Threw(d)
    else
      var p := Merge(EdgeDefaults, options);
      var (w, h) := SizeOf(normalImage);
      Pass(d, located, EdgeFromNormal, [normalImage], ["u_normalMap"],
           [("u_edgeStrength", Param(p, "edgeStrength")), ("u_threshold", Param(p, "threshold")), Resolution(w, h)], w, h)
  }

  /**
   * `generateAOMap`: the size comes from the normal map; a missing height
   * map throws only after two textures were created, and those stay live.
   */
  function GenerateAoMap(d: Device, located: (Program, string) -> bool, normalImage: Option<Image>,
                         heightImage: Option<Image>, options: Params): (r: Outcome)
    ensures r.Done? <==> normalImage.Some? && heightImage.Some?
    ensures Valid(d) ==> Valid(r.dev)
    ensures Valid(d) && r.Done? ==> r.dev.live == d.live
    ensures normalImage.None? ==> r.dev == d
    ensures normalImage.Some? && heightImage.None? ==> r.dev.live == d.live + {d.next, d.next + 1}
    ensures r.Done? ==> r.image == normalImage.value
    ensures d.framebuffer.Some? ==> SameFramebuffer(r.dev, d)
  {
    if normalImage.None? then Threw(d)
    else
      var p := Merge(AoDefaults, options);
      var (w, h) := SizeOf(normalImage);
      var r := Pass(d, located, AoFromNormal, [normalImage, heightImage], ["u_normalMap", "u_heightMap"],
                    [("u_aoStrength", Param(p, "aoStrength")), ("u_aoSpread", Param(p, "aoSpread")),
                     ("u_aoSamples", Param(p, "aoSamples")), Resolution(w, h)], w, h);
      assert heightImage.None? ==> r.dev.next == d.next + 2 by {
        if heightImage.None? {
          var (d1, h1) := CreateTexture(d, normalImage);
          var (d2, h2) := CreateTexture(d1, heightImage);
          assert CreateAll(d, [normalImage, heightImage]).0 == d2;
        }
      }
      assert Span(d.next, d.next + 2) == {d.next, d.next + 1};
      r
  }

  /** `generateMetallicMap`. */
  function GenerateMetallicMap(d: Device, located: (Program, string) -> bool, diffuseImage: Option<Image>, options: Params): (r: Outcome)
    ensures r.Done? <==> diffuseImage.Some?
    ensures Valid(d) ==> Valid(r.dev)
    ensures Valid(d) && r.Done? ==> r.dev.live == d.live
    ensures diffuseImage.None? ==> r.dev == d
    ensures r.Done? ==> r.image == diffuseImage.value
    ensures d.framebuffer.Some? ==> SameFramebuffer(r.dev, d)
  {
    if diffuseImage.None? then Threw(d)
    else
      var p := Merge(MetallicDefaults, options);
      var (w, h) := SizeOf(diffuseImage);
      Pass(d, located, MetallicGenerator, [diffuseImage], ["u_diffuseMap"],
           [("u_threshold", Param(p, "threshold")), ("u_smoothness", Param(p, "smoothness"))], w, h)
  }

  /** `generateRoughnessMap`: the size comes from the diffuse image. */
  function GenerateRoughnessMap(d: Device, located: (Program, string) -> bool, diffuseImage: Option<Image>,
                                normalImage: Option<Image>, options: Params): (r: Outcome)
    ensures r.Done? <==> diffuseImage.Some? && normalImage.Some?
    ensures Valid(d) ==> Valid(r.dev)
    ensures Valid(d) && r.Done? ==> r.dev.live == d.live
    ensures diffuseImage.None? ==> r.dev == d
    ensures r.Done? ==> r.image == diffuseImage.value
    ensures d.framebuffer.Some? ==> SameFramebuffer(r.dev, d)
  {
    if diffuseImage.None? then Threw(d)
    else
      var p := Merge(RoughnessDefaults, options);
      var (w, h) := SizeOf(diffuseImage);
      assert AllPresent([diffuseImage, normalImage]) <==> normalImage.Some? by {
        assert [diffuseImage, normalImage][1] == normalImage;
      }
      Pass(d, located, RoughnessGenerator, [diffuseImage, normalImage], ["u_diffuseMap", "u_normalMap"],
           [("u_baseRoughness", Param(p, "baseRoughness")), ("u_normalInfluence", Param(p, "normalInfluence")),
            Resolution(w, h)], w, h)
  }

  /** `combineORMMap`: four textures, no scalar uniforms, the size of the AO map. */
  function CombineOrmMap(d: Device, located: (Program, string) -> bool, aoImage: Option<Image>,
                         roughnessImage: Option<Image>, metallicImage: Option<Image>): (r: Outcome)
    ensures r.Done? <==> aoImage.Some? && roughnessImage.Some? && metallicImage.Some?
    ensures Valid(d) ==> Valid(r.dev)
    ensures Valid(d) && r.Done? ==> r.dev.live == d.live
    ensures aoImage.None? ==> r.dev == d
    ensures r.Done? ==> r.image == aoImage.value
    ensures d.framebuffer.Some? ==> SameFramebuffer(r.dev, d)
  {
    if aoImage.None? then Threw(d)
    else
      var (w, h) := SizeOf(aoImage);
      var inputs := [aoImage, roughnessImage, metallicImage];
      assert inputs[0] == aoImage && inputs[1] == roughnessImage && inputs[2] == metallicImage;
      assert AllPresent(inputs) <==> aoImage.Some? && roughnessImage.Some? && metallicImage.Some?;
      Pass(d, located, CombineOrm, inputs, ["u_aoMap", "u_roughnessMap", "u_metallicMap"], [], w, h)
  }

  /**
   * The `main` framebuffer is created once: a device that already has it
   * never creates another, whatever synthesis runs on it.
   */
  lemma FramebufferCreatedOnce(d: Device, located: (Program, string) -> bool, img: Option<Image>, options: Params)
    requires Valid(d)
    ensures var r := GenerateHeightMap(d, located, img, options);
            r.dev.framebuffersCreated <= 1
            && (d.framebuffer.Some? ==> r.dev.framebuffer == d.framebuffer)
    ensures var r := GenerateNormalMap(d, located, img, options);
            r.dev.framebuffersCreated <= 1
            && (d.framebuffer.Some? ==> r.dev.framebuffer == d.framebuffer)
  {
  }
}

=== FILE: kernels.dfy ===
/**
 * The per-pixel fragment programs of the texture pipeline, as functions over
 * exact reals.  Every texture fetch a program makes is passed in explicitly
 * (a 3x3 `Window`, the AO sample heights, the nine blur taps), so a kernel is
 * a pure function from its fetched texels and uniforms to one output colour.
 *
 * GLSL built-ins that have no exact real counterpart are parameters:
 * `sqrt` (from which `length`, `distance` and `normalize` are defined),
 * `exp`, `cos` and `sin`.  Only `sqrt` and `exp` are constrained, and only
 * as far as the proofs need.
 */
module Kernels {
  import opened Base

  datatype Vec3 = Vec3(x: real, y: real, z: real)

  /** One `gl_FragColor`, each channel nominally in [0,1]. */
  datatype Rgba = Rgba(r: real, g: real, b: real, a: real)

  /**
   * The 3x3 neighbourhood of the current texel: `t` is the row above
   * (+y in texture space), `b` the row below, `c` the texel itself.
   */
  datatype Window<T> = Window(tl: T, t: T, tr: T, l: T, c: T, r: T, bl: T, b: T, br: T)

  /** All eight neighbours of the centre hold `v` (the centre is not constrained). */
  predicate RingIs<T(==)>(w: Window<T>, v: T) {
    w.tl == v && w.t == v && w.tr == v && w.l == v && w.r == v && w.bl == v && w.b == v && w.br == v
  }

  /** All nine texels of the window hold `v`. */
  predicate Uniform<T(==)>(w: Window<T>, v: T) {
    RingIs(w, v) && w.c == v
  }

  // ---------------------------------------------------------------------
  // GLSL vocabulary
  // ---------------------------------------------------------------------

  function Add(u: Vec3, v: Vec3): Vec3 { Vec3(u.x + v.x, u.y + v.y, u.z + v.z) }

  function Sub(u: Vec3, v: Vec3): Vec3 { Vec3(u.x - v.x, u.y - v.y, u.z - v.z) }

  function Scale(v: Vec3, k: real): Vec3 { Vec3(v.x * k, v.y * k, v.z * k) }

  function Dot(u: Vec3, v: Vec3): real { u.x * v.x + u.y * v.y + u.z * v.z }

  function Cross(u: Vec3, v: Vec3): Vec3 {
    Vec3(u.y * v.z - u.z * v.y, u.z * v.x - u.x * v.z, u.x * v.y - u.y * v.x)
  }

  /** GLSL `mix(x, y, a)`. */
  function Mix(x: real, y: real, a: real): real { x * (1.0 - a) + y * a }

  /** GLSL `clamp(x, 0.0, 1.0)`. */
  function Clamp01(x: real): (r: real)
    ensures 0.0 <= r <= 1.0
    ensures 0.0 <= x <= 1.0 ==> r == x
  {
    if x < 0.0 then 0.0 else if x > 1.0 then 1.0 else x
  }

  predicate InUnit(x: real) { 0.0 <= x <= 1.0 }

  /** A grey opaque output colour, as the single-channel programs write it. */
  function Grey(v: real): Rgba { Rgba(v, v, v, 1.0) }

  predicate IsGreyUnit(c: Rgba) {
    c.r == c.g == c.b && InUnit(c.r) && c.a == 1.0
  }

  /** The luma weights the shaders use in `rgb2gray` and the metallic and saturation code. */
  function Luma(c: Vec3): real { 0.299 * c.x + 0.587 * c.y + 0.114 * c.z }

  /**
   * What the model assumes of the `sqrt` built-in: it is the non-negative
   * square root (the value at zero is stated as well, since it is not
   * derivable by the solver from the square alone).
   */
  ghost predicate IsSqrt(sqrt: real -> real) {
    && sqrt(0.0) == 0.0
    && (forall x :: 0.0 <= x ==> 0.0 <= sqrt(x))
    && (forall x :: 0.0 <= x ==> SquaresTo(sqrt, x))
  }

  /** `sqrt(x)` squared is `x`; kept apart so that the solver meets it only where a proof asks. */
  ghost predicate SquaresTo(sqrt: real -> real, x: real) {
    sqrt(x) * sqrt(x) == x
  }

  /** What the model assumes of the `exp` built-in. */
  ghost predicate IsPositive(exp: real -> real) {
    forall x :: exp(x) > 0.0
  }

  /** GLSL `length`. */
  function Length(sqrt: real -> real, v: Vec3): (len: real)
    requires IsSqrt(sqrt)
    ensures 0.0 <= len
  {
    sqrt(SquaredLength(v))
  }

  /** `dot(v, v)`, kept behind a recursive sum so that callers see its sign, not its square terms. */
  function SquaredLength(v: Vec3): (s: real)
    ensures s >= 0.0
  {
    SumOfSquares([v.x, v.y, v.z])
  }

  function SumOfSquares(xs: seq<real>): (s: real)
    ensures s >= 0.0
  {
    if |xs| == 0 then 0.0 else (MulNonNegative2(xs[0]); xs[0] * xs[0] + SumOfSquares(xs[1..]))
  }

  lemma MulNonNegative2(x: real)
    ensures x * x >= 0.0
  {
  }

  lemma SquaredLengthIsDot(v: Vec3)
    ensures SquaredLength(v) == Dot(v, v)
  {
    assert [v.x, v.y, v.z][1..] == [v.y, v.z];
    assert [v.y, v.z][1..] == [v.z];
    assert [v.z][1..] == [];
    assert SumOfSquares([v.z]) == v.z * v.z;
    assert SumOfSquares([v.y, v.z]) == v.y * v.y + v.z * v.z;
  }

  lemma LengthSquared(sqrt: real -> real, v: Vec3)
    requires IsSqrt(sqrt)
    ensures Length(sqrt, v) * Length(sqrt, v) == Dot(v, v)
  {
    SquaredLengthIsDot(v);
    assert SquaresTo(sqrt, SquaredLength(v));
  }

  /** GLSL `distance`. */
  function Distance(sqrt: real -> real, p: Vec3, q: Vec3): (d: real)
    requires IsSqrt(sqrt)
    ensures 0.0 <= d
  {
    Length(sqrt, Sub(p, q))
  }

  lemma MulNonNegative(a: real, b: real)
    requires a >= 0.0 && b >= 0.0
    ensures a * b >= 0.0
  {
  }

  lemma SquareAbove(x: real, l: real)
    requires l > 0.0 && x > l
    ensures x * x > l * l
  {
    assert x * x > x * l;
    assert x * l > l * l;
  }

  lemma SquareBelowOne(x: real)
    requires 0.0 <= x < 1.0
    ensures x * x < 1.0
  {
    assert x * x <= x * 1.0;
  }

  /** The only non-negative square root of 1 is 1. */
  lemma UnitRoot(s: real)
    requires s >= 0.0 && s * s == 1.0
    ensures s == 1.0
  {
    if s > 1.0 {
      SquareAbove(s, 1.0);
    } else if s < 1.0 {
      SquareBelowOne(s);
    }
  }

  lemma LengthOfZero(sqrt: real -> real)
    requires IsSqrt(sqrt)
    ensures Length(sqrt, Vec3(0.0, 0.0, 0.0)) == 0.0
  {
    SquaredLengthIsDot(Vec3(0.0, 0.0, 0.0));
  }

  lemma DistanceToSelf(sqrt: real -> real, p: Vec3)
    requires IsSqrt(sqrt)
    ensures Distance(sqrt, p, p) == 0.0
  {
    assert Sub(p, p) == Vec3(0.0, 0.0, 0.0);
    LengthOfZero(sqrt);
  }

  /** A coordinate divided by a length at least as large as itself lies in [-1,1]. */
  lemma QuotientBounded(x: real, len: real)
    requires len > 0.0 && x * x <= len * len
    ensures -1.0 <= x / len <= 1.0
  {
    assert -len <= x <= len;
  }

  /** Division by a positive number keeps the sign of the numerator, and `a >= d` gives at least 1. */
  lemma DivideBounds(a: real, d: real)
    requires d > 0.0
    ensures a >= 0.0 ==> a / d >= 0.0
    ensures a <= 0.0 ==> a / d <= 0.0
    ensures a >= d ==> a / d >= 1.0
  {
  }

  /** GLSL `normalize`, for the non-zero vectors the normal program produces. */
  function Normalize(sqrt: real -> real, v: Vec3): (n: Vec3)
    requires IsSqrt(sqrt) && SquaredLength(v) > 0.0
    ensures -1.0 <= n.x <= 1.0 && -1.0 <= n.y <= 1.0 && -1.0 <= n.z <= 1.0
  {
    var len := Length(sqrt, v);
    UnitComponents(sqrt, v);
    Vec3(v.x / len, v.y / len, v.z / len)
  }

  /** Each coordinate of a non-zero vector, divided by its length, lies in [-1,1]. */
  lemma UnitComponents(sqrt: real -> real, v: Vec3)
    requires IsSqrt(sqrt) && SquaredLength(v) > 0.0
    ensures Length(sqrt, v) > 0.0
    ensures -1.0 <= v.x / Length(sqrt, v) <= 1.0
    ensures -1.0 <= v.y / Length(sqrt, v) <= 1.0
    ensures -1.0 <= v.z / Length(sqrt, v) <= 1.0
  {
    var len := Length(sqrt, v);
    LengthSquared(sqrt, v);
    SquaredLengthIsDot(v);
    var xx, yy, zz := v.x * v.x, v.y * v.y, v.z * v.z;
    MulNonNegative2(v.x);
    MulNonNegative2(v.y);
    MulNonNegative2(v.z);
    assert len * len == xx + yy + zz;
    assert len != 0.0;
    QuotientBounded(v.x, len);
    QuotientBounded(v.y, len);
    QuotientBounded(v.z, len);
  }

  lemma NormalizeUp(sqrt: real -> real)
    requires IsSqrt(sqrt)
    ensures Normalize(sqrt, Vec3(0.0, 0.0, 1.0)) == Vec3(0.0, 0.0, 1.0)
  {
    var len := Length(sqrt, Vec3(0.0, 0.0, 1.0));
    LengthSquared(sqrt, Vec3(0.0, 0.0, 1.0));
    UnitRoot(len);
  }

  /** `t*t*(3-2t)` stays in [0,1] on [0,1]. */
  lemma HermiteBounded(t: real)
    requires 0.0 <= t <= 1.0
    ensures 0.0 <= t * t * (3.0 - 2.0 * t) <= 1.0
  {
    MulNonNegative(t, t);
    MulNonNegative(t * t, 3.0 - 2.0 * t);
    var a := 1.0 - t;
    MulNonNegative(a, a);
    MulNonNegative(a * a, 1.0 + 2.0 * t);
    assert a * a * (1.0 + 2.0 * t) == 1.0 - t * t * (3.0 - 2.0 * t);
  }

  /** GLSL `smoothstep`; GLSL leaves it undefined unless `e0 < e1`. */
  function Smoothstep(e0: real, e1: real, x: real): (r: real)
    requires e0 < e1
    ensures InUnit(r)
    ensures x <= e0 ==> r == 0.0
    ensures x >= e1 ==> r == 1.0
  {
    var t := Clamp01((x - e0) / (e1 - e0));
    HermiteBounded(t);
    DivideBounds(x - e0, e1 - e0);
    t * t * (3.0 - 2.0 * t)
  }

  // ---------------------------------------------------------------------
  // heightFromDiffuse
  // ---------------------------------------------------------------------

  datatype HeightUniforms = HeightUniforms(
    blur0Weight: real, blur1Weight: real, blur2Weight: real, blur3Weight: real,
    finalGain: real, intensity: real)

  /**
   * Height from luma plus 0.3 times the mean absolute luma difference to the
   * eight neighbours, stretched around 0.5 by `intensity` and clamped.  The
   * four blur weights and `finalGain` are declared uniforms the program never reads.
   */
  function HeightPixel(w: Window<Vec3>, u: HeightUniforms): (out: Rgba)
    ensures IsGreyUnit(out)
  {
    var brightness := Luma(w.c);
    // the neighbours in the program's loop order: x = -1, 0, 1 outer, y = -1, 0, 1 inner
    var contrast := (Abs(brightness - Luma(w.bl)) + Abs(brightness - Luma(w.l)) + Abs(brightness - Luma(w.tl))
                   + Abs(brightness - Luma(w.b)) + Abs(brightness - Luma(w.t))
                   + Abs(brightness - Luma(w.br)) + Abs(brightness - Luma(w.r)) + Abs(brightness - Luma(w.tr))) / 8.0;
    var height := brightness * 0.7 + contrast * 0.3;
    Grey(Clamp01((height - 0.5) * u.intensity + 0.5))
  }

  lemma HeightIgnoresBlurAndGain(w: Window<Vec3>, u: HeightUniforms, u': HeightUniforms)
    requires u.intensity == u'.intensity
    ensures HeightPixel(w, u) == HeightPixel(w, u')
  {
  }

  lemma HeightOfFlatImage(w: Window<Vec3>, col: Vec3, u: HeightUniforms)
    requires Uniform(w, col)
    ensures HeightPixel(w, u) == Grey(Clamp01((0.7 * Luma(col) - 0.5) * u.intensity + 0.5))
  {
  }

  /** A flat mid-grey source at the default intensity 2.0 gives height 0.2. */
  lemma HeightOfFlatMidGrey(w: Window<Vec3>, u: HeightUniforms)
    requires Uniform(w, Vec3(0.5, 0.5, 0.5)) && u.intensity == 2.0
    ensures HeightPixel(w, u) == Grey(0.2)
  {
    HeightOfFlatImage(w, Vec3(0.5, 0.5, 0.5), u);
  }

  // ---------------------------------------------------------------------
  // normalFromHeight
  // ---------------------------------------------------------------------

  datatype NormalUniforms = NormalUniforms(strength: real, step: real, invertR: real, invertG: real)

  /**
   * The sampling distance in texels, `max(1.0, u_step)`, stated on its own:
   * `NormalPixel` receives its window already sampled at this distance.
   */
  function EffectiveStep(step: real): (s: real)
    ensures s >= 1.0 && s >= step
    ensures s == 1.0 || s == step
  {
    if step > 1.0 then step else 1.0
  }

  /** Sobel X over the red channel of the height window. */
  function SobelX(w: Window<real>): real {
    w.tr + 2.0 * w.r + w.br - (w.tl + 2.0 * w.l + w.bl)
  }

  /** Sobel Y over the red channel of the height window. */
  function SobelY(w: Window<real>): real {
    w.tl + 2.0 * w.t + w.tr - (w.bl + 2.0 * w.b + w.br)
  }

  /**
   * The tangent-space normal of the height window (sampled `EffectiveStep`
   * texels apart), encoded as `n*0.5+0.5`.  The centre texel is never read.
   */
  function NormalPixel(sqrt: real -> real, w: Window<real>, u: NormalUniforms): (out: Rgba)
    requires IsSqrt(sqrt)
    ensures InUnit(out.r) && InUnit(out.g) && InUnit(out.b) && out.a == 1.0
  {
    var dX := SobelX(w);
    var dY := SobelY(w);
    var v := Vec3(-dX * u.strength, -dY * u.strength, 1.0);
    assert SquaredLength(v) > 0.0 by {
      SquaredLengthIsDot(v);
      MulNonNegative2(v.x);
      MulNonNegative2(v.y);
    }
    var n := Normalize(sqrt, v);
    var nx := if u.invertR > 0.5 then -n.x else n.x;
    var ny := if u.invertG > 0.5 then -n.y else n.y;
    Rgba(nx * 0.5 + 0.5, ny * 0.5 + 0.5, n.z * 0.5 + 0.5, 1.0)
  }

  /** Zero gradient gives the straight-up normal, whatever the strength and Y convention. */
  lemma NormalOfFlatHeight(sqrt: real -> real, w: Window<real>, h: real, u: NormalUniforms)
    requires IsSqrt(sqrt) && RingIs(w, h)
    ensures NormalPixel(sqrt, w, u) == Rgba(0.5, 0.5, 1.0, 1.0)
  {
    assert SobelX(w) == 0.0 && SobelY(w) == 0.0;
    assert Vec3(-SobelX(w) * u.strength, -SobelY(w) * u.strength, 1.0) == Vec3(0.0, 0.0, 1.0);
    NormalizeUp(sqrt);
  }

  // ---------------------------------------------------------------------
  // edgeFromNormal
  // ---------------------------------------------------------------------

  datatype EdgeUniforms = EdgeUniforms(edgeStrength: real, threshold: real)

  function Xs(w: Window<Vec3>): Window<real> { Window(w.tl.x, w.t.x, w.tr.x, w.l.x, w.c.x, w.r.x, w.bl.x, w.b.x, w.br.x) }

  function Ys(w: Window<Vec3>): Window<real> { Window(w.tl.y, w.t.y, w.tr.y, w.l.y, w.c.y, w.r.y, w.bl.y, w.b.y, w.br.y) }

  function Zs(w: Window<Vec3>): Window<real> { Window(w.tl.z, w.t.z, w.tr.z, w.l.z, w.c.z, w.r.z, w.bl.z, w.b.z, w.br.z) }

  /** The vec3 Sobel X the edge program computes, one component per channel. */
  function SobelXv(w: Window<Vec3>): Vec3 { Vec3(SobelX(Xs(w)), SobelX(Ys(w)), SobelX(Zs(w))) }

  function SobelYv(w: Window<Vec3>): Vec3 { Vec3(SobelY(Xs(w)), SobelY(Ys(w)), SobelY(Zs(w))) }

  /**
   * Edge strength from the Sobel gradient magnitudes of the normal map,
   * inverted and passed through `smoothstep(0.3, 0.7, .)`; `threshold` is
   * a declared uniform the program never reads.
   */
  function EdgePixel(sqrt: real -> real, w: Window<Vec3>, u: EdgeUniforms): (out: Rgba)
    requires IsSqrt(sqrt)
    ensures IsGreyUnit(out)
  {
    var edge := (Length(sqrt, SobelXv(w)) + Length(sqrt, SobelYv(w))) / 8.0 * u.edgeStrength;
    Grey(Smoothstep(0.3, 0.7, 1.0 - edge))
  }

  lemma EdgeIgnoresThreshold(sqrt: real -> real, w: Window<Vec3>, u: EdgeUniforms, u': EdgeUniforms)
    requires IsSqrt(sqrt) && u.edgeStrength == u'.edgeStrength
    ensures EdgePixel(sqrt, w, u) == EdgePixel(sqrt, w, u')
  {
  }

  lemma EdgeOfFlatNormals(sqrt: real -> real, w: Window<Vec3>, n: Vec3, u: EdgeUniforms)
    requires IsSqrt(sqrt) && RingIs(w, n)
    ensures EdgePixel(sqrt, w, u) == Grey(1.0)
  {
    assert SobelXv(w) == Vec3(0.0, 0.0, 0.0);
    assert SobelYv(w) == Vec3(0.0, 0.0, 0.0);
    LengthOfZero(sqrt);
  }

  // ---------------------------------------------------------------------
  // aoFromNormal
  // ---------------------------------------------------------------------

  datatype AoUniforms = AoUniforms(aoStrength: real, aoSpread: real, aoSamples: real)

  const MaxSamples: nat := 16

  /** `u_aoSamples < 16 ? u_aoSamples : 16`. */
  function SampleLimit(aoSamples: real): real {
    if aoSamples < MaxSamples as real then aoSamples else MaxSamples as real
  }

  /**
   * How many iterations of `for (i = from; i < 16; i++) if (float(i) >= samples) break;`
   * run: exactly the indices in [from,16) below `samples`.
   */
  predicate Below(k: nat, samples: real) { (k as real) < samples }

  function SamplesTaken(from: nat, samples: real): (n: nat)
    requires from <= MaxSamples
    ensures from + n <= MaxSamples
    ensures forall k :: from <= k < MaxSamples ==> (k < from + n <==> Below(k, samples))
    decreases MaxSamples - from
  {
    if from == MaxSamples || (from as real) >= samples then 0
    else 1 + SamplesTaken(from + 1, samples)
  }

  /** The accumulated `max(0, sampleHeight - centerHeight)` over the first `n` samples. */
  function Occlusion(center: real, heights: seq<real>, n: nat): (acc: real)
    requires n <= |heights|
    ensures acc >= 0.0
    ensures (forall i :: 0 <= i < n ==> heights[i] <= center) ==> acc == 0.0
  {
    if n == 0 then 0.0
    else Occlusion(center, heights, n - 1) + Max(0.0, heights[n - 1] - center)
  }

  /**
   * Ambient occlusion of one texel.  `heights[i]` is the height fetched at the
   * i-th point of the sample circle (its position, from cos/sin, is the caller's).
   * With `u_aoSamples == 0` the program divides zero by zero, which has no
   * defined result: `None`.  The normal fetch is declared but never used.
   */
  function AoPixel(normal: Vec3, center: real, heights: seq<real>, u: AoUniforms): (out: Option<Rgba>)
    requires |heights| == MaxSamples
    ensures out.Some? <==> u.aoSamples != 0.0
    ensures out.Some? ==> IsGreyUnit(out.value)
  {
    var samples := SampleLimit(u.aoSamples);
    AoFromOcclusion(Occlusion(center, heights, SamplesTaken(0, samples)), samples, u.aoStrength)
  }

  /** `clamp(1 - acc / samples * aoStrength)`, undefined for zero samples. */
  function AoFromOcclusion(acc: real, samples: real, aoStrength: real): (out: Option<Rgba>)
    ensures out.Some? <==> samples != 0.0
    ensures out.Some? ==> IsGreyUnit(out.value)
  {
    if samples == 0.0 then None
    else Some(Grey(Clamp01(1.0 - acc / samples * aoStrength)))
  }

  /** An integral `aoSamples` of n takes exactly min(n, 16) samples. */
  lemma AoSampleCount(n: nat)
    ensures SamplesTaken(0, SampleLimit(n as real)) == if n < MaxSamples then n else MaxSamples
  {
    var m := if n < MaxSamples then n else MaxSamples;
    assert SampleLimit(n as real) == m as real;
    SamplesTakenIntegral(0, m);
  }

  lemma {:induction false} SamplesTakenIntegral(from: nat, m: nat)
    requires from <= MaxSamples && m <= MaxSamples
    ensures SamplesTaken(from, m as real) == if m <= from then 0 else m - from
    decreases MaxSamples - from
  {
    if from < m {
      SamplesTakenIntegral(from + 1, m);
    }
  }

  /** Only the first min(aoSamples,16) sample heights influence the result. */
  lemma AoReadsOnlyTakenSamples(normal: Vec3, center: real, hs: seq<real>, hs': seq<real>, u: AoUniforms)
    requires |hs| == MaxSamples && |hs'| == MaxSamples
    requires forall i :: 0 <= i < SamplesTaken(0, SampleLimit(u.aoSamples)) ==> hs[i] == hs'[i]
    ensures AoPixel(normal, center, hs, u) == AoPixel(normal, center, hs', u)
  {
    var samples := SampleLimit(u.aoSamples);
    var taken := SamplesTaken(0, samples);
    OcclusionPrefix(center, hs, hs', taken);
    assert AoPixel(normal, center, hs, u) == AoFromOcclusion(Occlusion(center, hs, taken), samples, u.aoStrength);
  }

  lemma {:induction false} OcclusionPrefix(center: real, hs: seq<real>, hs': seq<real>, n: nat)
    requires n <= |hs| && n <= |hs'|
    requires forall i :: 0 <= i < n ==> hs[i] == hs'[i]
    ensures Occlusion(center, hs, n) == Occlusion(center, hs', n)
  {
    if n > 0 {
      OcclusionPrefix(center, hs, hs', n - 1);
    }
  }

  /** No sample the loop takes lies above the centre: nothing occludes. */
  lemma AoUnoccluded(normal: Vec3, center: real, heights: seq<real>, u: AoUniforms)
    requires |heights| == MaxSamples && u.aoSamples != 0.0
    requires forall i :: 0 <= i < SamplesTaken(0, SampleLimit(u.aoSamples)) ==> heights[i] <= center
    ensures AoPixel(normal, center, heights, u) == Some(Grey(1.0))
  {
  }

  lemma AoIgnoresNormal(n: Vec3, n': Vec3, center: real, heights: seq<real>, u: AoUniforms)
    requires |heights| == MaxSamples
    ensures AoPixel(n, center, heights, u) == AoPixel(n', center, heights, u)
  {
  }

  // ---------------------------------------------------------------------
  // metallicGenerator
  // ---------------------------------------------------------------------

  datatype MetallicUniforms = MetallicUniforms(threshold: real, smoothness: real)

  /** What the program calls saturation: max channel minus min channel. */
  function Chroma(c: Vec3): real {
    Max(Max(c.x, c.y), c.z) - Min(Min(c.x, c.y), c.z)
  }

  /** `luminance * (1 - saturation)`, the score the threshold is applied to. */
  function MetallicScore(c: Vec3): real { Luma(c) * (1.0 - Chroma(c)) }

  /**
   * Metallic from a diffuse colour.  `smoothstep(threshold - smoothness,
   * threshold + smoothness, score)` has no defined GLSL result unless
   * `smoothness > 0`: `None` then.
   */
  function MetallicPixel(c: Vec3, u: MetallicUniforms): (out: Option<Rgba>)
    ensures out.Some? <==> u.smoothness > 0.0
    ensures out.Some? ==> IsGreyUnit(out.value)
  {
    if u.threshold - u.smoothness < u.threshold + u.smoothness
    then Some(Grey(Smoothstep(u.threshold - u.smoothness, u.threshold + u.smoothness, MetallicScore(c))))
    else None
  }

  /** A grey diffuse texel is fully metallic above the band and not metallic below it. */
  lemma MetallicOfGrey(v: real, u: MetallicUniforms)
    requires u.smoothness > 0.0
    ensures v >= u.threshold + u.smoothness ==> MetallicPixel(Vec3(v, v, v), u) == Some(Grey(1.0))
    ensures v <= u.threshold - u.smoothness ==> MetallicPixel(Vec3(v, v, v), u) == Some(Grey(0.0))
  {
    assert Chroma(Vec3(v, v, v)) == 0.0;
    assert MetallicScore(Vec3(v, v, v)) == v;
  }

  // ---------------------------------------------------------------------
  // roughnessGenerator
  // ---------------------------------------------------------------------

  datatype RoughnessUniforms = RoughnessUniforms(baseRoughness: real, normalInfluence: real)

  /** The nine texels in the program's loop order: x = -1, 0, 1 outer, y = -1, 0, 1 inner. */
  function LoopOrder<T>(w: Window<T>): seq<T> {
    [w.bl, w.l, w.tl, w.b, w.c, w.t, w.br, w.r, w.tr]
  }

  function DistanceSum(sqrt: real -> real, p: Vec3, qs: seq<Vec3>): (d: real)
    requires IsSqrt(sqrt)
    ensures d >= 0.0
  {
    if |qs| == 0 then 0.0 else Distance(sqrt, p, qs[0]) + DistanceSum(sqrt, p, qs[1..])
  }

  /** Mean distance from the centre to the nine texels of the window (the centre included). */
  function Variation(sqrt: real -> real, w: Window<Vec3>): (v: real)
    requires IsSqrt(sqrt)
    ensures v >= 0.0
  {
    DistanceSum(sqrt, w.c, LoopOrder(w)) / 9.0
  }

  function RoughnessPixel(sqrt: real -> real, diffuse: Window<Vec3>, normal: Window<Vec3>, u: RoughnessUniforms): (out: Rgba)
    requires IsSqrt(sqrt)
    ensures IsGreyUnit(out)
  {
    Grey(Clamp01(u.baseRoughness + Variation(sqrt, diffuse) + Variation(sqrt, normal) * u.normalInfluence))
  }

  lemma {:induction false} DistanceSumToSelf(sqrt: real -> real, p: Vec3, qs: seq<Vec3>)
    requires IsSqrt(sqrt) && forall k :: 0 <= k < |qs| ==> qs[k] == p
    ensures DistanceSum(sqrt, p, qs) == 0.0
  {
    if |qs| > 0 {
      DistanceToSelf(sqrt, p);
      DistanceSumToSelf(sqrt, p, qs[1..]);
    }
  }

  lemma VariationOfUniform(sqrt: real -> real, w: Window<Vec3>)
    requires IsSqrt(sqrt) && Uniform(w, w.c)
    ensures Variation(sqrt, w) == 0.0
  {
    DistanceSumToSelf(sqrt, w.c, LoopOrder(w));
  }

  lemma RoughnessOfUniformWindows(sqrt: real -> real, diffuse: Window<Vec3>, normal: Window<Vec3>, u: RoughnessUniforms)
    requires IsSqrt(sqrt) && Uniform(diffuse, diffuse.c) && Uniform(normal, normal.c)
    ensures RoughnessPixel(sqrt, diffuse, normal, u) == Grey(Clamp01(u.baseRoughness))
  {
    VariationOfUniform(sqrt, diffuse);
    VariationOfUniform(sqrt, normal);
  }

  // ---------------------------------------------------------------------
  // gaussianBlur
  // ---------------------------------------------------------------------

  /** The nine taps sit at offsets -4..4 along `u_direction`. */
  const Taps: nat := 9

  function Sum(xs: seq<real>): real {
    if |xs| == 0 then 0.0 else xs[0] + Sum(xs[1..])
  }

  function WeightedSum(xs: seq<real>, ws: seq<real>): real
    requires |xs| == |ws|
  {
    if |xs| == 0 then 0.0 else xs[0] * ws[0] + WeightedSum(xs[1..], ws[1..])
  }

  /** `exp(-(i*i) / (2 * blurSize^2))` for the tap at offset `i`. */
  function BlurWeight(exp: real -> real, i: int, blurSize: real): real
    requires blurSize != 0.0
  {
    exp(-((i * i) as real) / (2.0 * blurSize * blurSize))
  }

  function BlurWeights(exp: real -> real, blurSize: real): (ws: seq<real>)
    requires blurSize != 0.0 && IsPositive(exp)
    ensures |ws| == Taps
    ensures forall k :: 0 <= k < Taps ==> ws[k] > 0.0
  {
    seq(Taps, k requires 0 <= k => BlurWeight(exp, k - 4, blurSize))
  }

  lemma {:induction false} SumPositive(ws: seq<real>)
    requires |ws| > 0 && forall k :: 0 <= k < |ws| ==> ws[k] > 0.0
    ensures Sum(ws) > 0.0
  {
    if |ws| > 1 {
      SumPositive(ws[1..]);
    }
  }

  /** The weights divided by their total, as the program's `color / total` applies them. */
  function NormalizedWeights(ws: seq<real>, total: real): (ns: seq<real>)
    requires total != 0.0
    ensures |ns| == |ws|
  {
    if |ws| == 0 then [] else [ws[0] / total] + NormalizedWeights(ws[1..], total)
  }

  lemma {:induction false} SumNormalized(ws: seq<real>, total: real)
    requires total != 0.0
    ensures Sum(NormalizedWeights(ws, total)) == Sum(ws) / total
  {
    if |ws| > 0 {
      SumNormalized(ws[1..], total);
      var ns := NormalizedWeights(ws, total);
      assert ns[1..] == NormalizedWeights(ws[1..], total);
      assert ws[0] / total + Sum(ws[1..]) / total == (ws[0] + Sum(ws[1..])) / total;
    }
  }

  lemma {:induction false} WeightedSumOfConstant(xs: seq<real>, ws: seq<real>, c: real)
    requires |xs| == |ws| && forall k :: 0 <= k < |xs| ==> xs[k] == c
    ensures WeightedSum(xs, ws) == c * Sum(ws)
  {
    if |xs| > 0 {
      WeightedSumOfConstant(xs[1..], ws[1..], c);
    }
  }

  lemma WeightedSumBounds(xs: seq<real>, ws: seq<real>, lo: real, hi: real)
    requires |xs| == |ws|
    requires forall k :: 0 <= k < |ws| ==> ws[k] >= 0.0
    requires forall k :: 0 <= k < |xs| ==> lo <= xs[k] <= hi
    ensures lo * Sum(ws) <= WeightedSum(xs, ws) <= hi * Sum(ws)
  {
    WeightedSumAbove(xs, ws, lo);
    WeightedSumBelow(xs, ws, hi);
  }

  lemma {:induction false} WeightedSumAbove(xs: seq<real>, ws: seq<real>, lo: real)
    requires |xs| == |ws|
    requires forall k :: 0 <= k < |ws| ==> ws[k] >= 0.0
    requires forall k :: 0 <= k < |xs| ==> lo <= xs[k]
    ensures lo * Sum(ws) <= WeightedSum(xs, ws)
  {
    if |xs| == 0 {
      assert Sum(ws) == 0.0 && WeightedSum(xs, ws) == 0.0;
    } else {
      var rest, total := WeightedSum(xs[1..], ws[1..]), Sum(ws[1..]);
      WeightedSumAbove(xs[1..], ws[1..], lo);
      AboveStep(xs[0], ws[0], rest, total, lo);
    }
  }

  lemma {:induction false} WeightedSumBelow(xs: seq<real>, ws: seq<real>, hi: real)
    requires |xs| == |ws|
    requires forall k :: 0 <= k < |ws| ==> ws[k] >= 0.0
    requires forall k :: 0 <= k < |xs| ==> xs[k] <= hi
    ensures WeightedSum(xs, ws) <= hi * Sum(ws)
  {
    if |xs| == 0 {
      assert Sum(ws) == 0.0 && WeightedSum(xs, ws) == 0.0;
    } else {
      var rest, total := WeightedSum(xs[1..], ws[1..]), Sum(ws[1..]);
      WeightedSumBelow(xs[1..], ws[1..], hi);
      AboveStep(-xs[0], ws[0], -rest, total, -hi);
    }
  }

  /** One step of the inductions above, on scalars: adding a term `x * w` with `lo <= x` keeps the bound. */
  lemma AboveStep(x: real, w: real, rest: real, total: real, lo: real)
    requires w >= 0.0 && lo <= x
    requires lo * total <= rest
    ensures lo * (w + total) <= x * w + rest
  {
    MulNonNegative(x - lo, w);
  }

  /** One channel of a blur pass: `sum(tap * weight) / sum(weight)`. */
  function BlurChannel(exp: real -> real, taps: seq<real>, blurSize: real): real
    requires |taps| == Taps && blurSize != 0.0 && IsPositive(exp)
  {
    var ws := BlurWeights(exp, blurSize);
    SumPositive(ws);
    WeightedSum(taps, ws) / Sum(ws)
  }

  /** A blurred channel of in-range taps is in range. */
  lemma BlurChannelInUnit(exp: real -> real, taps: seq<real>, blurSize: real)
    requires |taps| == Taps && blurSize != 0.0 && IsPositive(exp)
    ensures (forall k :: 0 <= k < Taps ==> InUnit(taps[k])) ==> InUnit(BlurChannel(exp, taps, blurSize))
  {
    if forall k :: 0 <= k < Taps ==> InUnit(taps[k]) {
      BlurChannelBounded(exp, taps, blurSize, 0.0, 1.0);
    }
  }

  predicate IsUnitRgba(c: Rgba) { InUnit(c.r) && InUnit(c.g) && InUnit(c.b) && InUnit(c.a) }

  /** One blur pass over RGBA taps (every channel, alpha included, is blurred alike). */
  function GaussianBlur(exp: real -> real, taps: seq<Rgba>, blurSize: real): (out: Rgba)
    requires |taps| == Taps && blurSize != 0.0 && IsPositive(exp)
    ensures (forall k :: 0 <= k < Taps ==> IsUnitRgba(taps[k])) ==> IsUnitRgba(out)
  {
    BlurChannelInUnit(exp, seq(Taps, k requires 0 <= k < Taps => taps[k].r), blurSize);
    BlurChannelInUnit(exp, seq(Taps, k requires 0 <= k < Taps => taps[k].g), blurSize);
    BlurChannelInUnit(exp, seq(Taps, k requires 0 <= k < Taps => taps[k].b), blurSize);
    BlurChannelInUnit(exp, seq(Taps, k requires 0 <= k < Taps => taps[k].a), blurSize);
    Rgba(BlurChannel(exp, seq(Taps, k requires 0 <= k < Taps => taps[k].r), blurSize),
         BlurChannel(exp, seq(Taps, k requires 0 <= k < Taps => taps[k].g), blurSize),
         BlurChannel(exp, seq(Taps, k requires 0 <= k < Taps => taps[k].b), blurSize),
         BlurChannel(exp, seq(Taps, k requires 0 <= k < Taps => taps[k].a), blurSize))
  }

  lemma BlurWeightsNormalized(exp: real -> real, blurSize: real)
    requires blurSize != 0.0 && IsPositive(exp)
    ensures var ws := BlurWeights(exp, blurSize);
            Sum(ws) > 0.0 && Sum(NormalizedWeights(ws, Sum(ws))) == 1.0
  {
    var ws := BlurWeights(exp, blurSize);
    SumPositive(ws);
    SumNormalized(ws, Sum(ws));
    assert Sum(ws) / Sum(ws) == 1.0;
  }

  lemma BlurChannelOfConstant(exp: real -> real, taps: seq<real>, blurSize: real, c: real)
    requires |taps| == Taps && blurSize != 0.0 && IsPositive(exp)
    requires forall k :: 0 <= k < Taps ==> taps[k] == c
    ensures BlurChannel(exp, taps, blurSize) == c
  {
    var ws := BlurWeights(exp, blurSize);
    SumPositive(ws);
    WeightedSumOfConstant(taps, ws, c);
  }

  lemma BlurChannelBounded(exp: real -> real, taps: seq<real>, blurSize: real, lo: real, hi: real)
    requires |taps| == Taps && blurSize != 0.0 && IsPositive(exp)
    requires forall k :: 0 <= k < Taps ==> lo <= taps[k] <= hi
    ensures lo <= BlurChannel(exp, taps, blurSize) <= hi
  {
    var ws := BlurWeights(exp, blurSize);
    SumPositive(ws);
    WeightedSumBounds(taps, ws, lo, hi);
    var s := Sum(ws);
    var q := WeightedSum(taps, ws) / s;
    assert q * s == WeightedSum(taps, ws);
    if q < lo { assert q * s < lo * s; }
    if q > hi { assert q * s > hi * s; }
  }

  lemma BlurOfConstant(exp: real -> real, taps: seq<Rgba>, blurSize: real, c: Rgba)
    requires |taps| == Taps && blurSize != 0.0 && IsPositive(exp)
    requires forall k :: 0 <= k < Taps ==> taps[k] == c
    ensures GaussianBlur(exp, taps, blurSize) == c
  {
    BlurChannelOfConstant(exp, seq(Taps, k requires 0 <= k < Taps => taps[k].r), blurSize, c.r);
    BlurChannelOfConstant(exp, seq(Taps, k requires 0 <= k < Taps => taps[k].g), blurSize, c.g);
    BlurChannelOfConstant(exp, seq(Taps, k requires 0 <= k < Taps => taps[k].b), blurSize, c.b);
    BlurChannelOfConstant(exp, seq(Taps, k requires 0 <= k < Taps => taps[k].a), blurSize, c.a);
  }

  // ---------------------------------------------------------------------
  // combineORM
  // ---------------------------------------------------------------------

  /** Occlusion, roughness and metallic packed into R, G and B of one opaque texel. */
  function CombineOrm(ao: Rgba, roughness: Rgba, metallic: Rgba): (orm: Rgba)
    ensures orm.a == 1.0
    ensures InUnit(ao.r) && InUnit(roughness.r) && InUnit(metallic.r) ==> IsUnitRgba(orm)
  {
    Rgba(ao.r, roughness.r, metallic.r, 1.0)
  }

  /** The ORM channel convention, read back from a packed texel. */
  function UnpackOrm(orm: Rgba): (real, real, real) { (orm.r, orm.g, orm.b) }

  lemma CombineOrmRoundTrip(ao: Rgba, roughness: Rgba, metallic: Rgba)
    ensures UnpackOrm(CombineOrm(ao, roughness, metallic)) == (ao.r, roughness.r, metallic.r)
    ensures CombineOrm(ao, roughness, metallic).a == 1.0
  {
  }

  /** Only the red channel of each input is read. */
  lemma CombineOrmReadsOnlyRed(ao: Rgba, roughness: Rgba, metallic: Rgba, ao': Rgba, roughness': Rgba, metallic': Rgba)
    requires ao.r == ao'.r && roughness.r == roughness'.r && metallic.r == metallic'.r
    ensures CombineOrm(ao, roughness, metallic) == CombineOrm(ao', roughness', metallic')
  {
  }

  // ---------------------------------------------------------------------
  // adjustLevels
  // ---------------------------------------------------------------------

  datatype LevelUniforms = LevelUniforms(brightness: real, contrast: real, saturation: real, hue: real)

  /** The approximation of pi the program multiplies the hue by. */
  const HuePi: real := 3.14159

  /** Rotation about the grey axis (Rodrigues), given the cosine and sine of the angle. */
  function AdjustHue(c: Vec3, cosA: real, sinA: real): (out: Vec3)
    ensures c.x == c.y == c.z ==> out.x == out.y == out.z
    ensures cosA == 1.0 && sinA == 0.0 ==> out == c
  {
    var k := Vec3(0.57735, 0.57735, 0.57735);
    Add(Add(Scale(c, cosA), Scale(Cross(k, c), sinA)), Scale(k, Dot(k, c) * (1.0 - cosA)))
  }

  function AdjustSaturation(c: Vec3, saturation: real): Vec3 {
    var gray := Luma(c);
    Vec3(Mix(gray, c.x, saturation), Mix(gray, c.y, saturation), Mix(gray, c.z, saturation))
  }

  /**
   * The diffuse colour grade: optional hue rotation by `hue * pi`, contrast
   * about 0.5, brightness offset, saturation blend with the luma, clamp.
   * Alpha passes through untouched.
   */
  function AdjustLevels(cos: real -> real, sin: real -> real, c: Rgba, u: LevelUniforms): (out: Rgba)
    ensures out.a == c.a
    ensures InUnit(out.r) && InUnit(out.g) && InUnit(out.b)
  {
    var rgb0 := Vec3(c.r, c.g, c.b);
    var rgb1 := if u.hue != 0.0 then AdjustHue(rgb0, cos(u.hue * HuePi), sin(u.hue * HuePi)) else rgb0;
    var rgb2 := Vec3((rgb1.x - 0.5) * u.contrast + 0.5, (rgb1.y - 0.5) * u.contrast + 0.5, (rgb1.z - 0.5) * u.contrast + 0.5);
    var rgb3 := Vec3(rgb2.x + u.brightness, rgb2.y + u.brightness, rgb2.z + u.brightness);
    var rgb4 := AdjustSaturation(rgb3, u.saturation);
    Rgba(Clamp01(rgb4.x), Clamp01(rgb4.y), Clamp01(rgb4.z), c.a)
  }

  /** The default grade leaves every in-range colour as it is. */
  lemma AdjustLevelsNeutral(cos: real -> real, sin: real -> real, c: Rgba)
    requires InUnit(c.r) && InUnit(c.g) && InUnit(c.b)
    ensures AdjustLevels(cos, sin, c, LevelUniforms(0.0, 1.0, 1.0, 0.0)) == c
  {
  }
}

=== FILE: timing.dfy ===
/**
 * `Utils.debounce` and `Utils.throttle` as state machines over an explicit
 * clock (milliseconds).  JavaScript's event loop is modelled by `Advance`:
 * before a call at time `now` is handled, every timer due at or before `now`
 * has already run.
 */
module Timing {
  import opened Base

  // ---------------------------------------------------------------------
  // debounce
  // ---------------------------------------------------------------------

  /** The one `setTimeout` a debounced function may have outstanding. */
  datatype Timer<A> = Timer(due: int, args: A)

  datatype Debouncer<A> = Debouncer(wait: nat, pending: Option<Timer<A>>)

  /** A run of the wrapped function: when it ran and with which arguments. */
  datatype Firing<A> = Firing(at: int, args: A)

  function NewDebouncer<A>(wait: nat): Debouncer<A> {
    Debouncer(wait, None)
  }

  /** The clock reaches `now`: a timer due by then runs once and is gone. */
  function Advance<A>(d: Debouncer<A>, now: int): (r: (Debouncer<A>, Option<Firing<A>>))
    ensures r.0.wait == d.wait
    ensures r.1.Some? <==> d.pending.Some? && d.pending.value.due <= now
    ensures r.1.Some? ==> r.1.value == Firing(d.pending.value.due, d.pending.value.args) && r.0.pending.None?
    ensures r.1.None? ==> r.0 == d
  {
    match d.pending
    case Some(t) => if t.due <= now then (d.(pending := None), Some(Firing(t.due, t.args))) else (d, None)
    case None => (d, None)
  }

  /**
   * A call of the debounced function: the pending timer, if any, is cleared
   * and a single new one is set for `now + wait` carrying this call's arguments.
   */
  function Call<A>(d: Debouncer<A>, now: int, args: A): (d': Debouncer<A>)
    ensures d'.wait == d.wait
    ensures d'.pending.Some? && d'.pending.value.due == now + d.wait && d'.pending.value.args == args
  {
    d.(pending := Some(Timer(now + d.wait, args)))
  }

  /**
   * A sequence of calls `(time, args)`, each preceded by the clock reaching
   * its time; the result holds every run of the wrapped function so far.
   */
  function Run<A>(d: Debouncer<A>, calls: seq<(int, A)>): (r: (Debouncer<A>, seq<Firing<A>>))
    ensures r.0.wait == d.wait
    ensures |calls| > 0 ==> r.0.pending == Some(Timer(calls[|calls| - 1].0 + d.wait, calls[|calls| - 1].1))
    decreases |calls|
  {
    if |calls| == 0 then (d, [])
    else
      var (d1, f) := Advance(d, calls[0].0);
      var (d2, rest) := Run(Call(d1, calls[0].0, calls[0].1), calls[1..]);
      (d2, (if f.Some? then [f.value] else []) + rest)
  }

  /** Every run once the clock has moved past the last timer. */
  function Settle<A>(d: Debouncer<A>, calls: seq<(int, A)>): seq<Firing<A>> {
    var (d1, fired) := Run(d, calls);
    fired + (if d1.pending.Some? then [Firing(d1.pending.value.due, d1.pending.value.args)] else [])
  }

  /**
   * The reference behaviour: call `i` reaches the wrapped function, `wait`
   * after it was made, exactly when no later call comes before then.
   */
  function Expected<A>(calls: seq<(int, A)>, wait: nat): (fs: seq<Firing<A>>)
    ensures |fs| <= |calls|
    ensures |calls| > 0 ==> |fs| > 0 && fs[|fs| - 1] == Firing(calls[|calls| - 1].0 + wait, calls[|calls| - 1].1)
    decreases |calls|
  {
    if |calls| == 0 then []
    else
      (if |calls| == 1 || calls[1].0 >= calls[0].0 + wait then [Firing(calls[0].0 + wait, calls[0].1)] else [])
      + Expected(calls[1..], wait)
  }

  /** The outstanding timer, seen as the call that set it. */
  function PendingCall<A>(d: Debouncer<A>): seq<(int, A)> {
    if d.pending.Some? then [(d.pending.value.due - d.wait, d.pending.value.args)] else []
  }

  /** The state machine and the reference agree on every call sequence. */
  lemma {:induction false} SettleMatchesExpected<A>(d: Debouncer<A>, calls: seq<(int, A)>)
    ensures Settle(d, calls) == Expected(PendingCall(d) + calls, d.wait)
    decreases |calls|
  {
    if |calls| == 0 {
      assert PendingCall(d) + calls == PendingCall(d);
    } else {
      var (d1, f) := Advance(d, calls[0].0);
      var d2 := Call(d1, calls[0].0, calls[0].1);
      SettleMatchesExpected(d2, calls[1..]);
      assert PendingCall(d2) == [calls[0]];
      assert PendingCall(d2) + calls[1..] == calls;
      var (d3, rest) := Run(d2, calls[1..]);
      assert Run(d, calls) == (d3, (if f.Some? then [f.value] else []) + rest);
      if d.pending.Some? {
        var pc := PendingCall(d) + calls;
        assert pc[1..] == calls;
        assert pc[0] == (d.pending.value.due - d.wait, d.pending.value.args);
      } else {
        assert PendingCall(d) + calls == calls;
      }
    }
  }

  /** Calls closer together than `wait` collapse into one run, the last one's. */
  lemma {:induction false} BurstRunsOnce<A>(calls: seq<(int, A)>, wait: nat)
    requires |calls| > 0
    requires forall i :: 0 <= i < |calls| - 1 ==> calls[i + 1].0 < calls[i].0 + wait
    ensures Expected(calls, wait) == [Firing(calls[|calls| - 1].0 + wait, calls[|calls| - 1].1)]
    decreases |calls|
  {
    if |calls| > 1 {
      BurstRunsOnce(calls[1..], wait);
    }
  }

  /** Calls at 0, 10 and 20 ms with a 50 ms wait run once, at 70 ms, with the t=20 arguments. */
  lemma DebounceExample<A>(a: A, b: A, c: A)
    ensures Run(NewDebouncer(50), [(0, a), (10, b), (20, c)]).1 == []
    ensures Settle(NewDebouncer(50), [(0, a), (10, b), (20, c)]) == [Firing(70, c)]
  {
    var calls := [(0, a), (10, b), (20, c)];
    SettleMatchesExpected(NewDebouncer(50), calls);
    assert PendingCall(NewDebouncer<A>(50)) + calls == calls;
    BurstRunsOnce(calls, 50);
    var d1 := Call(NewDebouncer<A>(50), 0, a);
    var d2 := Call(d1, 10, b);
    assert calls[1..] == [(10, b), (20, c)];
    assert calls[1..][1..] == [(20, c)];
    assert Run(d2, [(20, c)]).1 == [];
    assert Run(d1, [(10, b), (20, c)]).1 == [];
  }

  // ---------------------------------------------------------------------
  // throttle
  // ---------------------------------------------------------------------

  /** `inThrottle` together with the time its reset timer fires. */
  datatype Throttle = Throttle(limit: nat, blockedUntil: Option<int>)

  function NewThrottle(limit: nat): Throttle {
    Throttle(limit, None)
  }

  /** Whether the throttle is still closed at `now` (its reset timer has not run yet). */
  predicate Blocked(th: Throttle, now: int) {
    th.blockedUntil.Some? && now < th.blockedUntil.value
  }

  /**
   * One call of the throttled function at `now`: it runs iff the throttle is
   * open, and then closes it for `limit`; otherwise it is dropped, not deferred.
   */
  function ThrottledCall(th: Throttle, now: int): (r: (Throttle, bool))
    ensures r.1 <==> !Blocked(th, now)
    ensures r.1 ==> r.0 == Throttle(th.limit, Some(now + th.limit))
    ensures !r.1 ==> r.0 == th
  {
    if Blocked(th, now) then (th, false)
    else (Throttle(th.limit, Some(now + th.limit)), true)
  }

  /** Whether each call of a sequence ran. */
  function RunThrottle(th: Throttle, times: seq<int>): (r: (Throttle, seq<bool>))
    ensures |r.1| == |times| && r.0.limit == th.limit
    decreases |times|
  {
    if |times| == 0 then (th, [])
    else
      var (th1, ran) := ThrottledCall(th, times[0]);
      var (th2, rest) := RunThrottle(th1, times[1..]);
      (th2, [ran] + rest)
  }

  predicate NonDecreasing(times: seq<int>) {
    forall i, j :: 0 <= i < j < |times| ==> times[i] <= times[j]
  }

  /**
   * Over non-decreasing call times, a call runs exactly when it comes at least
   * `limit` after the last call that ran (or no call has run yet): the first
   * call always runs, calls inside the window are dropped, and the first
   * call after the window runs.
   */
  lemma {:induction false} ThrottleRunsOutsideWindow(th: Throttle, times: seq<int>, last: Option<int>)
    requires NonDecreasing(times)
    requires last.None? ==> th.blockedUntil.None? || (|times| > 0 && th.blockedUntil.value <= times[0])
    requires last.Some? ==> th.blockedUntil == Some(last.value + th.limit)
    requires last.Some? && |times| > 0 ==> last.value <= times[0]
    ensures var ran := RunThrottle(th, times).1;
            forall i :: 0 <= i < |times| ==>
              (ran[i] <==> LastRan(last, times[..i], ran[..i]).None?
                           || times[i] >= LastRan(last, times[..i], ran[..i]).value + th.limit)
    decreases |times|
  {
    if |times| > 0 {
      var (th1, r0) := ThrottledCall(th, times[0]);
      var next := if r0 then Some(times[0]) else last;
      if |times| > 1 {
        assert times[0] <= times[1];
      }
      ThrottleRunsOutsideWindow(th1, times[1..], next);
      var ran := RunThrottle(th, times).1;
      var rest := RunThrottle(th1, times[1..]).1;
      assert ran == [r0] + rest;
      assert rest == ran[1..];
      forall i | 0 <= i < |times|
        ensures ran[i] <==> LastRan(last, times[..i], ran[..i]).None?
                            || times[i] >= LastRan(last, times[..i], ran[..i]).value + th.limit
      {
        if i > 0 {
          LastRanStep(last, times, ran, i);
          SliceShift(times, i);
          SliceShift(ran, i);
        }
      }
    }
  }

  lemma SliceShift<T>(s: seq<T>, i: nat)
    requires 0 < i <= |s|
    ensures s[1..][..i - 1] == s[1..i]
  {
  }

  /** The time of the last call that ran among `times` (with `ran` its outcomes), or `last` if none did. */
  function LastRan(last: Option<int>, times: seq<int>, ran: seq<bool>): Option<int>
    requires |times| == |ran|
    decreases |times|
  {
    if |times| == 0 then last
    else if ran[|ran| - 1] then Some(times[|times| - 1])
    else LastRan(last, times[..|times| - 1], ran[..|ran| - 1])
  }

  lemma {:induction false} LastRanStep(last: Option<int>, times: seq<int>, ran: seq<bool>, i: nat)
    requires |times| == |ran| && 0 < i <= |times|
    ensures LastRan(last, times[..i], ran[..i])
         == LastRan(if ran[0] then Some(times[0]) else last, times[1..i], ran[1..i])
    decreases i
  {
    if i > 1 {
      LastRanStep(last, times, ran, i - 1);
      assert times[..i][..i - 1] == times[..i - 1];
      assert ran[..i][..i - 1] == ran[..i - 1];
      assert times[1..i][..i - 2] == times[1..i - 1];
      assert ran[1..i][..i - 2] == ran[1..i - 1];
    } else {
      assert times[..1][..0] == [];
      assert ran[..1][..0] == [];
    }
  }

  /** With a 50 ms limit, calls at 0, 10, 20 and 60 ms: the first runs, the next two are dropped, the last runs. */
  lemma ThrottleExample()
    ensures RunThrottle(NewThrottle(50), [0, 10, 20, 60]).1 == [true, false, false, true]
  {
    var th := NewThrottle(50);
    var t1 := ThrottledCall(th, 0).0;
    assert [0, 10, 20, 60][1..] == [10, 20, 60];
    assert [10, 20, 60][1..] == [20, 60];
    assert [20, 60][1..] == [60];
    assert RunThrottle(t1, [60]).1 == [true];
    assert RunThrottle(t1, [20, 60]).1 == [false, true];
  }
}

=== FILE: utils.dfy ===
/**
 * The pure helpers of `Utils`: image down-scaling, the upload validators and
 * the RGB/HSL conversions, over exact reals.
 */
module Utils {
  import opened Base

  // ---------------------------------------------------------------------
  // resizeImage
  // ---------------------------------------------------------------------

  datatype Size = Size(width: nat, height: nat)

  /** The bound the application resizes uploads to, on both axes. */
  const MaxSide: nat := 2048

  /**
   * A scale factor `num / den`, kept exact.  JavaScript divides in floating
   * point; with the exact quotient, `Math.floor(side * scale)` is the integer
   * division `side * num / den`.
   */
  datatype Fraction = Fraction(num: nat, den: nat)

  const One := Fraction(1, 1)

  /** `p <= q` as quotients, by cross-multiplication. */
  predicate AtMost(p: Fraction, q: Fraction) {
    p.num * q.den <= q.num * p.den
  }

  /** The first of `p` and `q` unless the second is strictly smaller, as `Math.min` picks values. */
  function MinFraction(p: Fraction, q: Fraction): (m: Fraction)
    requires p.den > 0 && q.den > 0
    ensures m == p || m == q
    ensures AtMost(m, p) && AtMost(m, q)
  {
    if AtMost(p, q) then p else q
  }

  /**
   * `bound / dim`; a zero dimension gives `+Infinity` in JavaScript, which
   * never wins a `Math.min` that also holds 1, so 1 stands in for it.
   */
  function Ratio(bound: nat, dim: nat): (q: Fraction)
    ensures q.den > 0
    ensures dim > 0 ==> q == Fraction(bound, dim)
    ensures dim == 0 ==> q == One
  {
    if dim == 0 then One else Fraction(bound, dim)
  }

  /** `Math.min(maxWidth / width, maxHeight / height, 1)`. */
  function Scale(img: Size, maxWidth: nat, maxHeight: nat): (s: Fraction)
    requires maxWidth > 0 && maxHeight > 0
    ensures s.den > 0 && 0 < s.num <= s.den
    ensures img.width > 0 ==> img.width * s.num <= maxWidth * s.den
    ensures img.height > 0 ==> img.height * s.num <= maxHeight * s.den
    ensures img.width <= maxWidth && img.height <= maxHeight ==> s.num == s.den
  {
    var rw := Ratio(maxWidth, img.width);
    var rh := Ratio(maxHeight, img.height);
    var inner := MinFraction(rh, One);
    var s := MinFraction(rw, inner);
    AtMostTrans(s, inner, rh);
    AtMostTrans(s, inner, One);
    assert img.width > 0 ==> s.num * img.width <= maxWidth * s.den;
    assert img.width <= maxWidth && img.height <= maxHeight ==> AtMost(One, s) by {
      if img.width <= maxWidth && img.height <= maxHeight {
        assert AtMost(One, rw) && AtMost(One, rh);
        assert AtMost(One, inner);
      }
    }
    s
  }

  lemma AtMostTrans(p: Fraction, q: Fraction, r: Fraction)
    requires p.den > 0 && q.den > 0 && r.den > 0
    requires AtMost(p, q) && AtMost(q, r)
    ensures AtMost(p, r)
  {
    MulMono(p.num * q.den, q.num * p.den, r.den);
    MulMono(q.num * r.den, r.num * q.den, p.den);
    assert p.num * q.den * r.den == (p.num * r.den) * q.den;
    assert q.num * p.den * r.den == q.num * r.den * p.den;
    assert r.num * q.den * p.den == (r.num * p.den) * q.den;
    MulCancel(p.num * r.den, r.num * p.den, q.den);
  }

  lemma MulMono(a: int, b: int, c: nat)
    requires a <= b
    ensures a * c <= b * c
  {
  }

  lemma MulCancel(a: int, b: int, c: nat)
    requires c > 0 && a * c <= b * c
    ensures a <= b
  {
    if a > b {
      MulMono(b + 1, a, c);
    }
  }

  /** `Math.floor(side * scale)` for a scale `num / den`. */
  function ScaleSide(dim: nat, s: Fraction): nat
    requires s.den > 0
  {
    dim * s.num / s.den
  }

  /** A side scaled by at most 1 does not grow, and one that fits `bound * den` lands within `bound`. */
  lemma ScaleSideBounds(dim: nat, s: Fraction, bound: nat)
    requires s.den > 0 && s.num <= s.den
    ensures ScaleSide(dim, s) <= dim
    ensures dim * s.num <= bound * s.den ==> ScaleSide(dim, s) <= bound
    ensures s.num == s.den ==> ScaleSide(dim, s) == dim
  {
    MulMono(s.num, s.den, dim);
    assert dim * s.num <= dim * s.den;
    DivAtMost(dim * s.num, dim, s.den);
    if dim * s.num <= bound * s.den {
      DivAtMost(dim * s.num, bound, s.den);
    }
    if s.num == s.den {
      DivCancel(dim, s.den);
    }
  }

  /** `x / d <= y` whenever `x <= y * d`. */
  lemma DivAtMost(x: nat, y: nat, d: nat)
    requires d > 0 && x <= y * d
    ensures x / d <= y
  {
    var q := x / d;
    assert q * d <= x;
    if q > y {
      MulMono(y + 1, q, d);
    }
  }

  lemma DivCancel(a: nat, d: nat)
    requires d > 0
    ensures a * d / d == a
  {
    var q := a * d / d;
    var m := a * d % d;
    assert q * d + m == a * d;
    if q < a {
      MulMono(q + 1, a, d);
    } else if q > a {
      MulMono(a + 1, q, d);
    }
  }

  /**
   * `Utils.resizeImage`: both sides are scaled by one factor, never above 1,
   * and floored.
   */
  function ResizeImage(img: Size, maxWidth: nat, maxHeight: nat): (r: Size)
    requires maxWidth > 0 && maxHeight > 0
    ensures r.width <= img.width && r.width <= maxWidth
    ensures r.height <= img.height && r.height <= maxHeight
    ensures img.width <= maxWidth && img.height <= maxHeight ==> r == img
  {
    var s := Scale(img, maxWidth, maxHeight);
    ScaleSideBounds(img.width, s, maxWidth);
    ScaleSideBounds(img.height, s, maxHeight);
    Size(ScaleSide(img.width, s), ScaleSide(img.height, s))
  }

  /** A resized image is already within bounds, so resizing it again changes nothing. */
  lemma ResizeIdempotent(img: Size, maxWidth: nat, maxHeight: nat)
    requires maxWidth > 0 && maxHeight > 0
    ensures var once := ResizeImage(img, maxWidth, maxHeight);
            ResizeImage(once, maxWidth, maxHeight) == once
  {
  }

  /**
   * In exact arithmetic, an upload wider than it is tall (relative to the
   * bounds) and above the bound comes back exactly at the bound on its long
   * side.  Floating-point division can land one pixel short (width 3136 at
   * bound 2048 floors to 2047).
   */
  lemma ResizeLongSideHitsBound(img: Size, maxWidth: nat, maxHeight: nat)
    requires maxWidth > 0 && maxHeight > 0
    requires img.width > maxWidth
    requires img.width * maxHeight >= img.height * maxWidth
    ensures ResizeImage(img, maxWidth, maxHeight).width == maxWidth
  {
    var rw := Ratio(maxWidth, img.width);
    var rh := Ratio(maxHeight, img.height);
    var inner := MinFraction(rh, One);
    assert AtMost(rw, rh);
    assert AtMost(rw, One);
    assert AtMost(rw, inner);
    assert Scale(img, maxWidth, maxHeight) == rw;
    assert img.width * maxWidth == maxWidth * img.width;
    DivCancel(maxWidth, img.width);
  }

  /** A 4000 x 3000 photograph becomes 2048 x 1536 under the application's 2048 bound. */
  lemma ResizeExample()
    ensures ResizeImage(Size(4000, 3000), MaxSide, MaxSide) == Size(2048, 1536)
  {
    assert Scale(Size(4000, 3000), MaxSide, MaxSide) == Fraction(2048, 4000);
  }

  // ---------------------------------------------------------------------
  // validate
  // ---------------------------------------------------------------------

  /** What the validators see of an upload: its MIME type and its size in bytes. */
  datatype Upload = Upload(mimeType: string, size: nat)

  const ImageTypes: seq<string> := ["image/png", "image/jpeg", "image/jpg", "image/bmp", "image/tga"]

  /** The default upload limit, 50 MiB. */
  const MaxUploadSize: nat := 50 * 1024 * 1024

  /** `validate.isValidImage`: an exact, case-sensitive match against the five listed types. */
  predicate IsValidImage(f: Upload)
  {
    f.mimeType in ImageTypes
  }

  /** `validate.isValidSize`, with the limit as a parameter defaulting to 50 MiB. */
  predicate IsValidSize(f: Upload, maxSize: nat := MaxUploadSize)
  {
    f.size <= maxSize
  }

  /** Only the listed `image/` types pass; anything else, including other image types and upper case, is refused. */
  lemma ValidImageIsListedImage(f: Upload)
    ensures IsValidImage(f) ==> |f.mimeType| >= 9 && f.mimeType[..6] == "image/"
    ensures IsValidImage(f) <==> f.mimeType == "image/png" || f.mimeType == "image/jpeg" || f.mimeType == "image/jpg"
                                 || f.mimeType == "image/bmp" || f.mimeType == "image/tga"
    ensures !IsValidImage(Upload("image/gif", f.size)) && !IsValidImage(Upload("image/webp", f.size))
    ensures !IsValidImage(Upload("image/PNG", f.size)) && !IsValidImage(Upload("", f.size))
  {
  }

  /** The size limit is inclusive: exactly 50 MiB passes, one byte more does not. */
  lemma SizeLimitInclusive(mimeType: string)
    ensures MaxUploadSize == 52428800
    ensures IsValidSize(Upload(mimeType, 52428800))
    ensures !IsValidSize(Upload(mimeType, 52428801))
    ensures forall n: nat :: IsValidSize(Upload(mimeType, n)) <==> n <= 52428800
  {
  }

  // ---------------------------------------------------------------------
  // color.rgbToHsl / color.hslToRgb
  // ---------------------------------------------------------------------

  /** Hue in degrees, saturation and lightness in percent. */
  datatype Hsl = Hsl(h: real, s: real, l: real)

  datatype Rgb = Rgb(r: int, g: int, b: int)

  predicate IsChannel(x: real) {
    0.0 <= x <= 255.0
  }

  /**
   * `color.rgbToHsl` on channels in [0,255]; equal channels give hue and
   * saturation 0, and only they do.
   */
  function RgbToHsl(r: real, g: real, b: real): (c: Hsl)
    requires IsChannel(r) && IsChannel(g) && IsChannel(b)
    ensures (c.h == 0.0 && c.s == 0.0) <== (r == g == b)
    ensures c.s == 0.0 <==> r == g == b
    ensures 0.0 <= c.s <= 100.0 && 0.0 <= c.l <= 100.0
    ensures 0.0 <= c.h < 360.0
  {
    var r1, g1, b1 := r / 255.0, g / 255.0, b / 255.0;
    var mx := Max(r1, Max(g1, b1));
    var mn := Min(r1, Min(g1, b1));
    var l := (mx + mn) / 2.0;
    if mx == mn then
      Hsl(0.0, 0.0, l * 100.0)
    else
      var d := mx - mn;
      var s := if l > 0.5 then d / (2.0 - mx - mn) else d / (mx + mn);
      var h := if mx == r1 then ((g1 - b1) / d + (if g1 < b1 then 6.0 else 0.0)) / 6.0
               else if mx == g1 then ((b1 - r1) / d + 2.0) / 6.0
               else ((r1 - g1) / d + 4.0) / 6.0;
      SaturationBounds(mx, mn, l);
      HueBounds(r1, g1, b1, mx, mn);
      Hsl(h * 360.0, s * 100.0, l * 100.0)
  }

  lemma SaturationBounds(mx: real, mn: real, l: real)
    requires 0.0 <= mn < mx <= 1.0 && l == (mx + mn) / 2.0
    ensures l > 0.5 ==> 0.0 < (mx - mn) / (2.0 - mx - mn) <= 1.0
    ensures l <= 0.5 ==> 0.0 < (mx - mn) / (mx + mn) <= 1.0
  {
    if l > 0.5 {
      FractionInUnit(mx - mn, 2.0 - mx - mn);
    } else {
      FractionInUnit(mx - mn, mx + mn);
    }
  }

  lemma FractionInUnit(a: real, b: real)
    requires 0.0 < a <= b
    ensures 0.0 < a / b <= 1.0
  {
    assert (a / b) * b == a;
  }

  /** `|x| <= d` bounds `x / d` to [-1,1]. */
  lemma RatioInRange(x: real, d: real)
    requires d > 0.0 && -d <= x <= d
    ensures -1.0 <= x / d <= 1.0
    ensures x < 0.0 ==> x / d < 0.0
  {
    assert (x / d) * d == x;
  }

  lemma HueBounds(r: real, g: real, b: real, mx: real, mn: real)
    requires mx == Max(r, Max(g, b)) && mn == Min(r, Min(g, b)) && mn < mx
    ensures var d := mx - mn;
            var h := if mx == r then ((g - b) / d + (if g < b then 6.0 else 0.0)) / 6.0
                     else if mx == g then ((b - r) / d + 2.0) / 6.0
                     else ((r - g) / d + 4.0) / 6.0;
            0.0 <= h < 1.0
  {
    var d := mx - mn;
    if mx == r {
      RatioInRange(g - b, d);
    } else if mx == g {
      RatioInRange(b - r, d);
    } else {
      RatioInRange(r - g, d);
    }
  }

  /** JavaScript's `Math.round` on the values met here: halves round up. */
  function Round(x: real): int {
    (x + 0.5).Floor
  }

  /** The `hue2rgb` helper of `hslToRgb`, with its wrap of `t` into [0,1]. */
  function HueToChannel(p: real, q: real, t0: real): real {
    var t1 := if t0 < 0.0 then t0 + 1.0 else t0;
    var t := if t1 > 1.0 then t1 - 1.0 else t1;
    if t < 1.0 / 6.0 then p + (q - p) * 6.0 * t
    else if t < 1.0 / 2.0 then q
    else if t < 2.0 / 3.0 then p + (q - p) * (2.0 / 3.0 - t) * 6.0
    else p
  }

  /**
   * `color.hslToRgb`; zero saturation gives three equal channels, the
   * lightness scaled to [0,255].
   */
  function HslToRgb(c: Hsl): (out: Rgb)
    ensures c.s == 0.0 ==> out.r == out.g == out.b == Round(c.l / 100.0 * 255.0)
  {
    var h, s, l := c.h / 360.0, c.s / 100.0, c.l / 100.0;
    if s == 0.0 then
      Rgb(Round(l * 255.0), Round(l * 255.0), Round(l * 255.0))
    else
      var q := if l < 0.5 then l * (1.0 + s) else l + s - l * s;
      var p := 2.0 * l - q;
      Rgb(Round(HueToChannel(p, q, h + 1.0 / 3.0) * 255.0),
          Round(HueToChannel(p, q, h) * 255.0),
          Round(HueToChannel(p, q, h - 1.0 / 3.0) * 255.0))
  }

  /** Every grey survives the round trip through HSL unchanged. */
  lemma GreyRoundTrip(v: int)
    requires 0 <= v <= 255
    ensures HslToRgb(RgbToHsl(v as real, v as real, v as real)) == Rgb(v, v, v)
  {
    var c := RgbToHsl(v as real, v as real, v as real);
    assert c.l == v as real / 255.0 * 100.0;
    assert c.l / 100.0 * 255.0 == v as real;
  }

  /** Saturation 0 discards the hue: any two hues give the same grey. */
  lemma GreyIgnoresHue(h1: real, h2: real, l: real)
    ensures HslToRgb(Hsl(h1, 0.0, l)) == HslToRgb(Hsl(h2, 0.0, l))
  {
  }
}
